=== FILE: README.md ===
# ADXL372 driver: register encoding and shadow state

This project models the register-level core of a Python driver for the
ADXL372 SPI accelerometer. It covers:

- the read-modify-write bitfield helper (`update`);
- the SPI framing of `read` and `write`;
- the eight single-field setters and the driver's shadow copy of what it wrote;
- activity-threshold packing;
- the activity and inactivity timers;
- sample and FIFO-level decoding;
- FIFO configuration;
- soft reset;
- the register map, masks and positions of `defs.py`.

The device side is a register file with address auto-increment. Every frame
the driver sends is appended to a trace, so each operation's transfers can be
stated exactly: their number, order, header and payload. An operation that
raises returns the state it leaves behind, including transfers made before
the exception.

Modules, in dependency order:

| module | file | covers |
|---|---|---|
| `Bytes` | bytes.dfy | integers below 256 as bytes |
| `Defs` | defs.dfy | register addresses, masks, positions, flags, field table |
| `Codec` | codec.dfy | `update` as a pure byte function |
| `Options`, `Spi` | spi.dfy | header byte, read/write frames, register file, trace |
| `Enums` | enums.dfy | the `IntEnum` domains and their codes |
| `Driver` | driver.dfy | shadow state, construction, setters, status reads, reset |
| `Threshold` | threshold.dfy | `set_activity_threshold` |
| `Timers` | timers.dfy | `set_activity_time`, `set_inactivity_time` |
| `Samples` | samples.dfy | `process_sample`, the data reads, `get_fifo_entries` |
| `Fifo` | fifo.dfy | `configure_fifo` |
| `Invariants` | invariants.dfy | which operations keep the shadow equal to the registers |
| `Findings` | findings.dfy | the source defects below, shown on concrete inputs |

Where the source is defective, the model keeps an as-written member next to
the corrected one (see "## Findings"); the rest of the model uses the
corrected one.

Two points about the code that the model states exactly:

- `update` ANDs the shifted value with `mask ^ 0xff` (adxl372.py:127), so a
  value too wide for its field cannot reach the bits the mask keeps.
  `Codec.Update` states that the kept bits always equal the old byte.
- `fifo_samples` starts at 0x80, the raw register value (adxl372.py:101),
  while `configure_fifo` stores the depth, which is the register value plus
  one (adxl372.py:461). The model keeps 0x80 as written (`Driver.Init`).

## Model

| member | source | states |
|---|---|---|
| Codec.Update | adxl372.py:123-128 | every bit set in the mask comes from the byte read; every other bit comes from `val << shift` |
| Codec.UpdateThenExtract | adxl372.py:123-128 | a value that fits its field reads back unchanged from the written byte |
| Codec.UpdateIdempotent | adxl372.py:123-128 | a second update with the same value gives the same byte |
| Codec.UpdateKeepsDisjointField | adxl372.py:123-128 | an update never changes the value of a field with disjoint bits |
| Codec.ToByte | adxl372.py:121 | a value below 256 is carried as the byte of that value |
| Spi.Header | adxl372.py:105-106 | the header byte shifted right by one gives back the address; its bit 0 is set exactly for a read |
| Spi.ReadFrame | adxl372.py:105-107 | a read frame is the header with the read bit set, carrying the register address, followed by n zero bytes |
| Spi.WriteFrame | adxl372.py:113-121 | a write frame is the header with the read bit clear, carrying the register address, followed by the payload unchanged |
| Spi.Exchange | adxl372.py:105-121 | `xfer` appends the frame to the trace and answers with as many bytes as it was sent; a read frame changes no register and answers, after the header slot, with the burst from the addressed register |
| Spi.DecodeReadFrame | adxl372.py:105-107 | the device reads a read frame as a read of the requested register |
| Spi.DecodeWriteFrame | adxl372.py:113-121 | the device reads a write frame as a write of the payload to the register |
| Spi.FramesAreUnambiguous | adxl372.py:105-121 | a read frame never equals a write frame; write frames to different registers differ |
| Spi.Burst | adxl372.py:105-111 | a burst of n bytes returns the n consecutive registers from the start address |
| Spi.Store | adxl372.py:113-121 | a burst write fills consecutive registers and leaves all others alone |
| Spi.BurstAfterStore | adxl372.py:105-121 | reading back what a burst wrote returns the payload |
| Spi.Read | adxl372.py:105-111 | a read returns the burst from the register, appends one read frame and changes no register |
| Spi.ReadByte | adxl372.py:105-109 | a one-byte read returns the register's byte itself |
| Spi.Write | adxl372.py:113-121 | a write appends one write frame and stores the payload from the register on |
| Enums.CodesAreInjective | adxl372.py:10-76 | distinct members of each enum have distinct codes |
| Enums.OpModeFits | defs.py:68 | every operating-mode code fits the 2-bit field at bit 0 of POWER_CTL |
| Enums.OdrFits | defs.py:66-76 | every data-rate code (0-4) fits the 3-bit field at bits 5-7 of TIMING |
| Enums.BandwidthFits | defs.py:64 | every bandwidth code (0-4) fits the 3-bit field at bits 0-2 of MEASURE |
| Enums.WurFits | defs.py:67-77 | every wake-up-rate code (0-7) fits bits 2-4 of TIMING |
| Enums.ActivityModeFits | defs.py:65-75 | every activity-mode code (0-2) fits bits 4-5 of MEASURE |
| Enums.InstantOnThreshFits | defs.py:69-78 | both instant-on codes fit bit 5 of POWER_CTL |
| Enums.FilterSettleFits | defs.py:71-82 | both filter-settle codes fit bit 4 of POWER_CTL |
| Enums.BoolFits | defs.py:63-74 | the autosleep flag fits bit 6 of MEASURE |
| Enums.FifoModeMember | adxl372.py:62-66 | looking up a FIFOMode member by name succeeds exactly for its four member names |
| Enums.FifoFormatMember | adxl372.py:51-59 | looking up a FIFOFormat member by name succeeds exactly for its eight member names |
| Defs.RegisterMapIsConsistent | defs.py:1-55 | the 55 register addresses are pairwise distinct and none exceeds 0x42 |
| Defs.ConfigFieldsAreRuns | defs.py:63-82 | each mask clears one contiguous run of bits that starts at its position |
| Defs.SharedRegisterFieldsAreDisjoint | defs.py:63-82 | fields sharing a register are disjoint: MEASURE uses 0x77, TIMING 0xFC, POWER_CTL 0x33 |
| Defs.FifoControlLayout | defs.py:79-81 | FIFO_CTL carry, mode and format bits are pairwise disjoint and fill bits 0-5 |
| Defs.ThresholdGroupsAreConsecutive | defs.py:24-45 | each threshold group is six consecutive addresses from its X high byte, clear of the timer registers |
| Defs.StatusFlagsAreSingleBits | defs.py:84-87 | DATA_RDY, FIFO_RDY, FIFO_FULL and FIFO_OVR are distinct single bits |
| Defs.Pow2 | adxl372.py:456 | for every bit position within a byte, the field weight equals a one-bit shifted left by that position, as the `<<` that assembles FIFO_CTL |
| Driver.Init | adxl372.py:90-103 | construction makes no transfer; the shadow starts at full-bandwidth measurement, 400 Hz, 200 Hz bandwidth, autosleep off, 52 ms wake-up rate, default activity mode, 370 ms filter settle, low instant-on threshold, timers of 6.6 ms and 26 ms, FIFO depth 0x80 and FIFO codes 0 |
| Driver.InitAsWritten | adxl372.py:90-103 | construction, when it completes, makes no transfer and sets every shadow field but the two FIFO enums to the documented defaults; otherwise it raises AttributeError |
| Driver.UpdateRegister | adxl372.py:123-128 | `update` is one one-byte read, then one one-byte write to the same register, keeping the masked bits; no other register changes |
| Driver.RmwStoresValue | adxl372.py:123-128 | after a read-modify-write with a fitting value, the field holds that value |
| Driver.SetOpMode | adxl372.py:130-147 | one read-modify-write of the POWER_CTL mode field; the field holds the code; only the shadow's mode changes |
| Driver.SetOdr | adxl372.py:149-158 | as above, for the TIMING data-rate field and the shadow's data rate |
| Driver.SetBandwidth | adxl372.py:160-171 | as above, for the MEASURE bandwidth field |
| Driver.SetAutosleep | adxl372.py:173-185 | as above, for the MEASURE autosleep bit, written as `int(enable)` |
| Driver.SetWakeupRate | adxl372.py:187-198 | as above, for the TIMING wake-up-rate field |
| Driver.SetActivityProcessingMode | adxl372.py:200-215 | as above, for the MEASURE activity-processing field |
| Driver.SetFilterSettle | adxl372.py:217-227 | as above, for the POWER_CTL filter-settle bit |
| Driver.SetInstantOnThresh | adxl372.py:229-240 | as above, for the POWER_CTL instant-on threshold bit |
| Driver.SetterIsOneFieldUpdate | adxl372.py:130-240 | every setter is one read-modify-write of its own field with its code, and the field then holds that code |
| Driver.SetterIsIdempotent | adxl372.py:130-240 | calling a setter twice leaves the same registers and shadow as calling it once |
| Driver.ReadRegister | adxl372.py:105-109 | a one-byte status read returns the register, appends one read frame and changes neither registers nor shadow |
| Driver.GetDevId | adxl372.py:242-246 | returns ADI_DEVID through one one-byte read |
| Driver.GetStatus | adxl372.py:248-253 | returns STATUS_1 through one one-byte read |
| Driver.GetActivityStatus | adxl372.py:255-260 | returns STATUS_2 through one one-byte read |
| Driver.ResetAsWritten | adxl372.py:467-469 | reset writes 0x52 to SRESET in one frame and keeps the shadow |
| Driver.Reset | adxl372.py:467-469 | the same write, with the shadow back at the construction defaults |
| Threshold.ThresholdCode | adxl372.py:289-290 | the code is below 2048 and congruent to `thresh // 100` modulo 2048 for every integer; for 0..204799 mg it is the number of whole 100 mg steps |
| Threshold.Pack | adxl372.py:297-301 | `high * 8 + (low >> 5)` is the code; bits 4-2 of `low` are clear; bit 1 is referenced; bit 0 is enabled |
| Threshold.UnpackPack | adxl372.py:297-303 | the packed pair decodes to the code and both flags |
| Threshold.PackUnpack | adxl372.py:297-303 | every pair with bits 4-2 of the low byte clear is the packing of what it decodes to |
| Threshold.Payload | adxl372.py:303-306 | the payload is the pair, or the pair three times when replicated |
| Threshold.SetActivityThreshold | adxl372.py:262-312 | raises exactly when replicated from an address outside the three X high bytes, with no transfer; otherwise one burst writes 2 or 6 bytes from `addr` and nothing else changes |
| Threshold.ReplicatedThresholdFillsGroup | adxl372.py:304-312 | a replicated write fills the X, Y and Z pairs of the group and leaves the timer registers alone |
| Threshold.ThresholdExample | adxl372.py:289-303 | 100 mg, referenced and enabled, packs to 0x00, 0x23 |
| Timers.RoundHalfUpIsNearest | adxl372.py:335 | `int(x + .5)` lies in (x - 0.5, x + 0.5] and is the only integer there |
| Timers.RoundHalfUp | adxl372.py:335 | `int(x + .5)` of a non-negative x is within half a unit of x, an exact half going up |
| Timers.ActivityScale | adxl372.py:329-332 | the activity period is 3.3 ms exactly at 6400 Hz and twice that at every other rate |
| Timers.InactivityScale | adxl372.py:351-354 | the inactivity period is 13 ms exactly at 6400 Hz and twice that at every other rate |
| Timers.ActivityPeriods | adxl372.py:329-338 | the count is at most 255; below 255, count times period is within half a period of the duration; it is 255 exactly when the duration reaches 254.5 periods |
| Timers.InactivityPeriods | adxl372.py:351-361 | the same with periods of 13 or 26 ms and a ceiling of 65535 |
| Timers.ActivityPeriodsAreMonotone | adxl372.py:329-338 | a longer duration never gives fewer activity periods |
| Timers.InactivityPeriodsAreMonotone | adxl372.py:351-361 | a longer duration never gives fewer inactivity periods |
| Timers.SplitWord | adxl372.py:363-364 | high byte times 256 plus low byte is the word |
| Timers.SetActivityTime | adxl372.py:315-340 | one write of the count to TIME_ACT, nothing else changes, and the shadow keeps the duration rather than the count |
| Timers.SetInactivityTime | adxl372.py:342-368 | the high byte is written, then the low byte, and together they hold the count; the shadow keeps the duration |
| Timers.TimerExamples | adxl372.py:329-361 | the default durations give one period each; 0 ms gives 0; 1700 ms saturates |
| Timers.ActivityPeriodsDependOnRate | adxl372.py:329-332 | 6.6 ms is two periods at 6400 Hz and one at any other rate |
| Samples.Raw12 | adxl372.py:376-382 | the 12-bit field is the high byte times 16 plus the top nibble of the low byte |
| Samples.Axis | adxl372.py:384-392 | an axis is in [-2048, 2047], congruent to the 12-bit field modulo 4096, and negative exactly when bit 7 of the high byte is set |
| Samples.AxisOfEncode | adxl372.py:370-394 | encoding any value in range as `((v & 0xFFF) >> 4, (v & 0xF) << 4)` decodes back to it |
| Samples.EncodeOfAxis | adxl372.py:370-394 | re-encoding a decoded pair gives back the high byte and the top nibble of the low byte |
| Samples.LowNibbleIgnored | adxl372.py:376-382 | the low nibble of the low byte never affects the value |
| Samples.ProcessSample | adxl372.py:370-394 | each axis lies in -2048..2047, is congruent modulo 4096 to the unsigned 12-bit value of its high byte and the high nibble of the next byte, and is negative exactly when the high byte's top bit is set |
| Samples.ProcessEncodedSample | adxl372.py:370-394 | every sample in range survives encoding and `process_sample` |
| Samples.ProcessSampleExample | adxl372.py:370-394 | 7F F0 80 00 00 10 decodes to (2047, -2048, 1) |
| Samples.ReadSample | adxl372.py:396-414 | a sample read is one six-byte burst that changes no register |
| Samples.GetHighestPeakAccelData | adxl372.py:396-403 | the peak sample is `process_sample` of the six registers from X_MAXPEAK_H on, each axis from its own register pair, read in one six-byte transfer that changes no register and no shadow field |
| Samples.AccelDataStep | adxl372.py:405-414 | one polling pass reads STATUS; it yields a sample exactly when DATA_RDY is set, and that sample is `process_sample` of the six registers from X_DATA_H on, each axis from its own register pair |
| Samples.EntriesOf | adxl372.py:422-425 | the FIFO level is below 1024 |
| Samples.EntriesOfEncode | adxl372.py:422-425 | every level below 1024 survives the register encoding |
| Samples.EncodeOfEntries | adxl372.py:422-425 | re-encoding a decoded level gives back the two low bits and the low byte |
| Samples.EntriesIgnoreUpperBits | adxl372.py:423 | the upper six bits of FIFO_ENTRIES_2 never affect the level |
| Samples.GetFifoEntries | adxl372.py:417-425 | one two-byte read from FIFO_ENTRIES_2 returns the decoded level |
| Samples.FifoEntriesExample | adxl372.py:422-425 | 0x02, 0x34 gives 564, and so does 0xFE, 0x34 |
| Fifo.ClampDepthAsWritten | adxl372.py:450-451 | a request in 0..512 is kept; every request outside 0..512 becomes 512 |
| Fifo.ClampDepth | adxl372.py:450-451 | corrected clamp: a request in 1..512 is kept; anything else becomes 512 |
| Fifo.SamplesByte | adxl372.py:453-458 | FIFO_SAMPLES receives the stored count `n - 1` for depths 1..256, `n - 257` for depths 257..512 (the ninth bit goes to FIFO_CTL), and 0xFF for a depth of 0 |
| Fifo.ControlByte | adxl372.py:455-456 | FIFO_CTL is at most 0x3F; bit 0 is the ninth bit of `n - 1`; bits 1-2 hold the mode; bits 3-5 hold the format |
| Fifo.FifoBytesRoundTrip | adxl372.py:450-463 | for every depth 1..512, the device reads back the depth, mode and format the shadow records |
| Fifo.WriteFifoRegisters | adxl372.py:458-463 | FIFO_SAMPLES is written, then FIFO_CTL, and the shadow records depth, mode and format |
| Fifo.FifoTail | adxl372.py:458-465 | after the FIFO writes, the mode field is back at full bandwidth, the other POWER_CTL bits are kept, and only three registers change |
| Fifo.ConfigureFifo | adxl372.py:447-465 | the device reads back the clamped depth, mode and format and is left measuring; only POWER_CTL, FIFO_SAMPLES and FIFO_CTL change; the shadow records all of it |
| Fifo.ConfigureFifoAsWritten | adxl372.py:447-456 | `configure_fifo` as written always raises NameError on `samples_MSB`, after the standby read-modify-write, leaving FIFO_SAMPLES, FIFO_CTL and the shadow's FIFO settings as they were |
| Fifo.ConfigureFifoTransfers | adxl372.py:447-465 | the transfers are six, in order: the standby read-modify-write (its written byte keeps every POWER_CTL bit outside the mode field), the two FIFO writes, then the read of POWER_CTL and the write of its final byte that return to measurement |
| Fifo.FifoExamples | adxl372.py:450-459 | depth 512 sets the ninth bit with 0xFF; depth 1 stores 0 |
| Invariants.ShadowCodesOfApply | adxl372.py:130-240 | a setter changes exactly its own entry of the shadow's field codes |
| Invariants.RmwKeepsOtherField | adxl372.py:123-128 | a read-modify-write of one field never changes the value of another |
| Invariants.ApplyKeepsConsistent | adxl372.py:130-240 | if the shadow agrees with every register field, it still does after any setter |
| Invariants.TimersKeepConsistent | adxl372.py:315-368 | the timer writes keep that agreement |
| Invariants.ThresholdKeepsConsistent | adxl372.py:262-312 | a threshold write that ends before TIMING keeps that agreement |
| Invariants.UncheckedThresholdCanBreakConsistency | adxl372.py:304-312 | an unreplicated threshold write to POWER_CTL puts the device in standby while the shadow still says measuring |
| Invariants.ConfigureFifoKeepsConsistent | adxl372.py:447-465 | configuring the FIFO keeps every field in agreement with the shadow |
| Invariants.ConfigureFifoMakesFifoConsistent | adxl372.py:458-463 | afterwards the FIFO registers agree with the shadow's depth, mode and format |
| Invariants.InitAgreesExceptOpMode | adxl372.py:90-99 | with TIMING, MEASURE and POWER_CTL zeroed, construction agrees with every register field except the operating mode, which reads standby while the shadow records full-bandwidth measurement, so agreement does not hold at construction |
| Invariants.InitFifoDepthDisagrees | adxl372.py:101-103 | with FIFO_SAMPLES at 0x80 and FIFO_CTL zero, mode and format agree with construction but the registers encode a depth of 129 while the shadow records 128 |
| Findings.InitAsWrittenFails | adxl372.py:102-103 | construction as written always raises AttributeError for `FIFOMode.XYZ_FIFO` |
| Findings.DefaultNamesAreSwapped | adxl372.py:102-103 | the two member names belong to the other class |
| Findings.InitHasIntendedFifoDefaults | adxl372.py:102-103 | the corrected construction records Bypassed and XYZ, both code 0 |
| Findings.ConfigureFifoAsWrittenAlwaysRaises | adxl372.py:448-456 | `configure_fifo` as written raises NameError on every input after putting the device in standby, with the FIFO registers untouched |
| Findings.ClampAsWrittenAcceptsZero | adxl372.py:450-456 | the clamp as written keeps a request of 0, and the bytes computed for it are 0xFF with the ninth bit clear, which encode 256 samples |
| Findings.ZeroDepthOnceNameFixed | adxl372.py:450-465 | once the name at line 456 is corrected, the rest of `configure_fifo` as written leaves a request of 0 with the registers encoding 256 samples while the shadow records 0 |
| Findings.ClampAsWrittenRoundTripsExceptZero | adxl372.py:450-461 | with the written clamp, the registers agree with the shadow exactly when the clamped depth is not 0 |
| Findings.ClampRoundTrips | adxl372.py:450-461 | with the corrected clamp they always agree, and 0 becomes 512 |
| Findings.ResetAsWrittenLeavesStaleRate | adxl372.py:467-469 | after 6400 Hz and reset as written, a 6.6 ms activity time is written as 2 periods |
| Findings.ResetRestoresRate | adxl372.py:467-469 | after the corrected reset, the timer uses the power-on rate, so 6.6 ms is 1 period |

## Left out

- The `spidev` binding, bus open and clock speed (adxl372.py:1, 86-88): an abstract register-file exchange with a trace takes their place.
- `sleep(1)` in `reset` and the `__main__` demo (adxl372.py:467-489): timing and process entry are not modelled.
- The chip's own behaviour beyond storing and returning bytes. That covers soft reset (registers are not reset in the model), measurement, and FIFO filling; status and data registers hold whatever the register file holds.
- Samples.AccelDataStep: models one pass of the DATA_RDY polling loop (adxl372.py:410-412), not the unbounded loop itself.
- The runtime type check on `msg` in `write` (adxl372.py:115-119): payloads are typed `seq<bv8>`, so the TypeError branch cannot arise.
- Register addresses of 0x80 and above, and payload values outside 0..255: every address is a 7-bit `Reg` and every byte a `bv8`. What `spidev` does with wider values is not part of this model.
- Timers.SetActivityTime: requires a non-negative duration, because durations are exact reals and binary floating point is not modelled. What `spidev` does with the negative count a negative duration can produce is not part of this model.
- Timers.SetInactivityTime: requires a non-negative duration, for the same reason.
- Samples.ProcessSample: requires at least six bytes. The driver always passes a six-byte read; a shorter list would raise IndexError, which is not modelled.
- The setters and `configure_fifo` take enum members (`Enums`), so their arguments lie in the `IntEnum` domains. Python does not enforce the annotations: an out-of-range integer such as `set_ODR(7)`, or `configure_fifo(n, 5, 0)` whose mode spills into the format bits, is not modelled.
- Invariants.InitAgreesExceptOpMode: agreement between the shadow and the registers is proved preserved by every operation, from any agreeing device, but construction does not establish it. With the registers zeroed as adxl372.py:90 says, the operating mode disagrees. With FIFO_SAMPLES at 0x80, the FIFO depth disagrees by one. The chip's power-on register values are not modelled beyond these two lemmas' hypotheses, and the model does not decide whether the defaults or the comment are meant.
- Float scale constants, the unused example values and the interrupt pin numbers (defs.py:92-107), and the fixed identification values (defs.py:57-60): no operation uses them.
- The duplicated `PWRCTRL_INSTAON_THRESH_MASK` and `ADXL_SPI_RNW` definitions (defs.py:69-70, 89, 102) are modelled once each; both definitions carry the same value.

## Findings

| source | as written | input that shows it | evidently intended | confidence | as-written member | corrected member |
|---|---|---|---|---|---|---|
| adxl372.py:456 | FIFO_CTL is assembled from `samples_MSB`, but the local is `samples_msb`, so every call raises NameError after the standby write | any call, e.g. `configure_fifo(512, STREAMED, XYZ_FIFO)` | use `samples_msb` | high, not executed | Findings.ConfigureFifoAsWrittenAlwaysRaises | Fifo.ConfigureFifo |
| adxl372.py:102-103 | the defaults look up `FIFOMode.XYZ_FIFO` and `FIFOFormat.BYPASSED`, which do not exist (the names are swapped), so construction raises AttributeError | any construction | mode Bypassed and format XYZ, both code 0 | high, not executed | Findings.InitAsWrittenFails | Findings.InitHasIntendedFifoDefaults |
| adxl372.py:450 | the clamp sends only `> 512` or `< 0` to 512, so 0 becomes -1. The NameError at line 456 currently masks this. Once that name is corrected, a request of 0 makes FIFO_SAMPLES get 0xFF with the ninth bit clear (256 samples) while the shadow records 0 | `samples = 0`, with line 456 corrected | treat 0 like any other out-of-range request (512) | low (latent behind the line-456 defect), not executed | Findings.ZeroDepthOnceNameFixed | Findings.ClampRoundTrips |
| adxl372.py:467-469 | `reset` restores the chip's power-on configuration but leaves the shadow as it was, so later conversions use stale settings | `set_ODR(ODR_6400Hz)`, `reset()`, `set_activity_time(6.6)` writes 2 instead of 1 | return the shadow to the construction defaults | medium, not executed | Findings.ResetAsWrittenLeavesStaleRate | Findings.ResetRestoresRate |

=== FILE: bytes.dfy ===
/** Conversion between small integers and bytes. */
module Bytes {
  /** A value below 256 keeps its value as a byte. */
  lemma NatByteNat(v: nat)
    requires v < 256
    ensures (v as bv8) as nat == v
  {
    // Splitting on the top bit keeps the solver's search short.
    if v < 128 {
    } else {
    }
  }
}

=== FILE: codec.dfy ===
/** The read-modify-write field codec (adxl372.py `update`), as a pure
    function on the register byte. */
module Codec {
  import opened Defs
  import opened Bytes

  /** The low eight bits of `val << shift`: the only bits of the shifted value
      that can survive the driver's masking with `mask ^ 0xff`. */
  function Shifted(val: nat, shift: nat): bv8 {
    if shift >= 8 then 0 else ((val % 256) as bv8) << shift
  }

  /** The byte written back by a read-modify-write: the bits set in `mask`
      come from the byte read (`prev`), every other bit from `val << shift`. */
  function Update(prev: bv8, mask: bv8, shift: nat, val: nat): (r: bv8)
    ensures r & mask == prev & mask
    ensures r & !mask == Shifted(val, shift) & !mask
  {
    (prev & mask) | (Shifted(val, shift) & (mask ^ 0xFF))
  }

  /** The value held in the field a mask clears, read back from a byte. */
  function Extract(b: bv8, mask: bv8, shift: nat): nat {
    if shift >= 8 then 0 else ((b & !mask) >> shift) as nat
  }

  /** `val` fits the field: shifting it into place loses no bit and sets no
      bit the mask preserves. */
  predicate Fits(mask: bv8, shift: nat, val: nat) {
    && shift < 8
    && val < 256
    && Shifted(val, shift) & mask == 0
    && Shifted(val, shift) >> shift == val as bv8
  }

  /** A value that fits its field reads back unchanged after the update. */
  lemma UpdateThenExtract(prev: bv8, mask: bv8, shift: nat, val: nat)
    requires Fits(mask, shift, val)
    ensures Extract(Update(prev, mask, shift, val), mask, shift) == val
  {
    var r := Update(prev, mask, shift, val);
    var x := (r & !mask) >> shift;
    FieldOfFittingUpdate(r, mask, shift, val);
    ExtractIs(r, mask, shift, x);
    ByteRoundTrip(x, val);
  }

  // The three steps below are kept apart: the solver handles each conversion
  // between integers and bytes quickly on its own, but not all at once.

  lemma FieldOfFittingUpdate(r: bv8, mask: bv8, shift: nat, val: nat)
    requires Fits(mask, shift, val)
    requires r & !mask == Shifted(val, shift) & !mask
    ensures (r & !mask) >> shift == val as bv8
  {
  }

  lemma ExtractIs(r: bv8, mask: bv8, shift: nat, x: bv8)
    requires shift < 8 && x == (r & !mask) >> shift
    ensures Extract(r, mask, shift) == x as nat
  {
  }

  lemma ByteRoundTrip(b: bv8, v: nat)
    requires v < 256 && b == v as bv8
    ensures b as nat == v
  {
    NatByteNat(v);
  }

  /** The byte holding a value below 256. */
  function ToByte(v: nat): (b: bv8)
    requires v < 256
    ensures b as nat == v
  {
    NatByteNat(v);
    v as bv8
  }

  /** Bytes with the same value are the same byte. */
  lemma SameByte(x: bv8, y: bv8)
    requires x as nat == y as nat
    ensures x == y
  {
  }

  /** Updating twice with the same value gives the byte of the first update. */
  lemma UpdateIdempotent(prev: bv8, mask: bv8, shift: nat, val: nat)
    ensures Update(Update(prev, mask, shift, val), mask, shift, val) == Update(prev, mask, shift, val)
  {
  }

  /** An update of one field leaves the value of a disjoint field unchanged. */
  lemma UpdateKeepsDisjointField(prev: bv8, mask: bv8, shift: nat, val: nat, other: bv8, otherShift: nat)
    requires !mask & !other == 0
    ensures Extract(Update(prev, mask, shift, val), other, otherShift) == Extract(prev, other, otherShift)
  {
    var r := Update(prev, mask, shift, val);
    MaskedBitsKept(prev, r, mask, other);
    ExtractReadsField(r, prev, other, otherShift);
  }

  /** A field's value depends only on the bits its mask clears. */
  lemma ExtractReadsField(x: bv8, y: bv8, mask: bv8, pos: nat)
    requires x & !mask == y & !mask
    ensures Extract(x, mask, pos) == Extract(y, mask, pos)
  {
  }

  lemma MaskedBitsKept(prev: bv8, nb: bv8, mask: bv8, other: bv8)
    requires nb & mask == prev & mask
    requires !mask & !other == 0
    ensures nb & !other == prev & !other
  {
  }
}

=== FILE: defs.dfy ===
/** The ADXL372 register map, the bitfield masks and positions of its
    configuration registers, the status flags and the bus direction bit.

    A mask follows the driver's convention: its SET bits are the bits an
    update PRESERVES, so the field itself is the run of CLEARED bits. */
module Defs {

  /** A register address. The bus header carries it in bits 7..1. */
  type Reg = r: nat | r < 0x80

  // Identification, status and data registers
  const AdiDevId: Reg := 0x00
  const MstDevId: Reg := 0x01
  const DevId: Reg := 0x02
  const RevId: Reg := 0x03
  const Status1: Reg := 0x04
  const Status2: Reg := 0x05
  const FifoEntries2: Reg := 0x06
  const FifoEntries1: Reg := 0x07
  const XDataH: Reg := 0x08
  const XDataL: Reg := 0x09
  const YDataH: Reg := 0x0A
  const YDataL: Reg := 0x0B
  const ZDataH: Reg := 0x0C
  const ZDataL: Reg := 0x0D
  const XMaxPeakH: Reg := 0x15
  const XMaxPeakL: Reg := 0x16
  const YMaxPeakH: Reg := 0x17
  const YMaxPeakL: Reg := 0x18
  const ZMaxPeakH: Reg := 0x19
  const ZMaxPeakL: Reg := 0x1A
  const OffsetX: Reg := 0x20
  const OffsetY: Reg := 0x21
  const OffsetZ: Reg := 0x22

  // Activity / inactivity thresholds and timers
  const XThreshActH: Reg := 0x23
  const XThreshActL: Reg := 0x24
  const YThreshActH: Reg := 0x25
  const YThreshActL: Reg := 0x26
  const ZThreshActH: Reg := 0x27
  const ZThreshActL: Reg := 0x28
  const TimeAct: Reg := 0x29
  const XThreshInactH: Reg := 0x2A
  const XThreshInactL: Reg := 0x2B
  const YThreshInactH: Reg := 0x2C
  const YThreshInactL: Reg := 0x2D
  const ZThreshInactH: Reg := 0x2E
  const ZThreshInactL: Reg := 0x2F
  const TimeInactH: Reg := 0x30
  const TimeInactL: Reg := 0x31
  const XThreshAct2H: Reg := 0x32
  const XThreshAct2L: Reg := 0x33
  const YThreshAct2H: Reg := 0x34
  const YThreshAct2L: Reg := 0x35
  const ZThreshAct2H: Reg := 0x36
  const ZThreshAct2L: Reg := 0x37

  // Configuration registers
  const Hpf: Reg := 0x38
  const FifoSamples: Reg := 0x39
  const FifoCtl: Reg := 0x3A
  const Int1Map: Reg := 0x3B
  const Int2Map: Reg := 0x3C
  const Timing: Reg := 0x3D
  const Measure: Reg := 0x3E
  const PowerCtl: Reg := 0x3F
  const SelfTest: Reg := 0x40
  const SReset: Reg := 0x41
  const FifoData: Reg := 0x42

  // The register map in address order, in the groups the map lists
  const IdRegisters: seq<nat> := [AdiDevId, MstDevId, DevId, RevId, Status1, Status2, FifoEntries2, FifoEntries1]
  const DataRegisters: seq<nat> := [XDataH, XDataL, YDataH, YDataL, ZDataH, ZDataL]
  const PeakRegisters: seq<nat> := [XMaxPeakH, XMaxPeakL, YMaxPeakH, YMaxPeakL, ZMaxPeakH, ZMaxPeakL]
  const OffsetRegisters: seq<nat> := [OffsetX, OffsetY, OffsetZ]
  const ActGroup: seq<nat> := [XThreshActH, XThreshActL, YThreshActH, YThreshActL, ZThreshActH, ZThreshActL]
  const InactGroup: seq<nat> := [XThreshInactH, XThreshInactL, YThreshInactH, YThreshInactL, ZThreshInactH, ZThreshInactL]
  const Act2Group: seq<nat> := [XThreshAct2H, XThreshAct2L, YThreshAct2H, YThreshAct2L, ZThreshAct2H, ZThreshAct2L]
  const ConfigRegisters: seq<nat> := [Hpf, FifoSamples, FifoCtl, Int1Map, Int2Map, Timing, Measure, PowerCtl, SelfTest, SReset, FifoData]

  /** Every register of the map. */
  const AllRegisters: seq<nat> :=
    IdRegisters + DataRegisters + PeakRegisters + OffsetRegisters + ActGroup + [TimeAct]
    + InactGroup + [TimeInactH, TimeInactL] + Act2Group + ConfigRegisters

  // Bits an update preserves (the field is the run of cleared bits)
  const MeasureAutosleepMask: bv8 := 0xBF
  const MeasureBandwidthMask: bv8 := 0xF8
  const MeasureActprocMask: bv8 := 0xCF
  const TimingOdrMask: bv8 := 0x1F
  const TimingWurMask: bv8 := 0xE3
  const PwrCtrlOpmodeMask: bv8 := 0xFC
  const PwrCtrlInstaonThreshMask: bv8 := 0xDF
  const PwrCtrlFilterSettleMask: bv8 := 0xEF

  // Position of the lowest bit of each field in its register
  const MeasureAutosleepPos: nat := 6
  const MeasureActprocPos: nat := 4
  const TimingOdrPos: nat := 5
  const TimingWurPos: nat := 2
  const InstaonThreshPos: nat := 5
  const FifoCtlSamp8Pos: nat := 0
  const FifoCtlModePos: nat := 1
  const FifoCtlFormatPos: nat := 3
  const PwrCtrlFilterSettlePos: nat := 4

  // STATUS register flags
  const DataRdy: bv8 := 1
  const FifoRdy: bv8 := 2
  const FifoFull: bv8 := 4
  const FifoOvr: bv8 := 8

  const StatusFlags: seq<bv8> := [DataRdy, FifoRdy, FifoFull, FifoOvr]

  /** Direction bit of the bus header: set for a read. */
  const SpiRnw: bv8 := 1

  /** The integer `1 << k`. */
  function Pow2(k: nat): (p: nat)
    ensures p >= 1
    ensures k < 8 ==> p == ((1 as bv8) << k) as nat
  {
    if k == 0 then 1
    else
      var q := Pow2(k - 1);
      if k < 8 then ShiftDoubles(k - 1); 2 * q else 2 * q
  }

  /** Within a byte, shifting a bit one place further doubles its value. */
  lemma ShiftDoubles(j: nat)
    requires j < 7
    ensures ((1 as bv8) << (j + 1)) as nat == 2 * ((1 as bv8) << j) as nat
  {
    if j == 0 { } else if j == 1 { } else if j == 2 { } else if j == 3 { }
    else if j == 4 { } else if j == 5 { } else { }
  }

  /** The byte whose CLEARED bits are exactly bits pos .. pos + width - 1. */
  function RunMask(pos: nat, width: nat): bv8
    requires pos + width <= 8
  {
    !((((1 as bv8) << width) - 1) << pos)
  }

  /** A read-modify-write bitfield: its register, the driver's mask for it,
      the shift the driver uses, and the width of the field. */
  datatype Field = Field(reg: Reg, mask: bv8, pos: nat, width: nat)

  /** A field is well formed when its mask clears exactly `width` bits
      starting at `pos`. */
  predicate WellFormed(f: Field) {
    f.pos + f.width <= 8 && f.mask == RunMask(f.pos, f.width)
  }

  // The eight fields the single-field setters update. Operating mode and
  // bandwidth are shifted by a literal 0 in the driver.
  const OpModeField := Field(PowerCtl, PwrCtrlOpmodeMask, 0, 2)
  const OdrField := Field(Timing, TimingOdrMask, TimingOdrPos, 3)
  const BandwidthField := Field(Measure, MeasureBandwidthMask, 0, 3)
  const AutosleepField := Field(Measure, MeasureAutosleepMask, MeasureAutosleepPos, 1)
  const WakeupRateField := Field(Timing, TimingWurMask, TimingWurPos, 3)
  const ActProcField := Field(Measure, MeasureActprocMask, MeasureActprocPos, 2)
  const FilterSettleField := Field(PowerCtl, PwrCtrlFilterSettleMask, PwrCtrlFilterSettlePos, 1)
  const InstantOnField := Field(PowerCtl, PwrCtrlInstaonThreshMask, InstaonThreshPos, 1)

  const ConfigFields: seq<Field> := [
    OpModeField, OdrField, BandwidthField, AutosleepField,
    WakeupRateField, ActProcField, FilterSettleField, InstantOnField
  ]

  /** The X-axis high-byte registers a replicated threshold write may start at. */
  const XMsb: set<Reg> := {XThreshActH, XThreshAct2H, XThreshInactH}

  /** The six registers X_H, X_L, Y_H, Y_L, Z_H, Z_L of the threshold group
      whose X high byte is `xh`. */
  function ThresholdGroup(xh: Reg): seq<nat>
    requires xh in XMsb
  {
    if xh == XThreshActH then ActGroup
    else if xh == XThreshInactH then InactGroup
    else Act2Group
  }

  predicate StrictlyIncreasing(s: seq<nat>) {
    forall i :: 0 <= i < |s| - 1 ==> s[i] < s[i + 1]
  }

  predicate AtMost(s: seq<nat>, bound: nat) {
    forall i :: 0 <= i < |s| ==> s[i] <= bound
  }

  /** Two increasing runs, the first ending below the start of the second,
      make one increasing run. */
  lemma AppendIncreasing(a: seq<nat>, b: seq<nat>)
    requires StrictlyIncreasing(a) && StrictlyIncreasing(b)
    requires |a| > 0 && |b| > 0 && a[|a| - 1] < b[0]
    ensures StrictlyIncreasing(a + b)
  {
  }

  predicate Distinct(s: seq<nat>) {
    forall i, j :: 0 <= i < j < |s| ==> s[i] != s[j]
  }

  /** A sequence whose neighbours increase has no repeated element. */
  lemma {:induction false} IncreasingIsDistinct(s: seq<nat>)
    requires StrictlyIncreasing(s)
    ensures Distinct(s)
    ensures forall i, j :: 0 <= i < j < |s| ==> s[i] < s[j]
  {
    if |s| > 1 {
      var t := s[1..];
      assert StrictlyIncreasing(t) by {
        forall i | 0 <= i < |t| - 1 ensures t[i] < t[i + 1] {
          assert t[i] == s[i + 1] && t[i + 1] == s[i + 2];
        }
      }
      IncreasingIsDistinct(t);
      forall i, j | 0 <= i < j < |s| ensures s[i] < s[j] {
        if i == 0 {
          if j > 1 {
            assert s[j] == t[j - 1] && s[1] == t[0];
          }
        } else {
          assert s[i] == t[i - 1] && s[j] == t[j - 1];
        }
      }
    }
  }

  /** Every register address is distinct and at most 0x42, so every address
      fits the seven address bits of the bus header. */
  lemma RegisterMapIsConsistent()
    ensures |AllRegisters| == 55
    ensures Distinct(AllRegisters)
    ensures AtMost(AllRegisters, 0x42)
  {
    var s := IdRegisters;
    AppendIncreasing(s, DataRegisters);
    s := s + DataRegisters;
    AppendIncreasing(s, PeakRegisters);
    s := s + PeakRegisters;
    AppendIncreasing(s, OffsetRegisters);
    s := s + OffsetRegisters;
    AppendIncreasing(s, ActGroup);
    s := s + ActGroup;
    AppendIncreasing(s, [TimeAct]);
    s := s + [TimeAct];
    AppendIncreasing(s, InactGroup);
    s := s + InactGroup;
    AppendIncreasing(s, [TimeInactH, TimeInactL]);
    s := s + [TimeInactH, TimeInactL];
    AppendIncreasing(s, Act2Group);
    s := s + Act2Group;
    AppendIncreasing(s, ConfigRegisters);
    s := s + ConfigRegisters;
    assert s == AllRegisters;
    IncreasingIsDistinct(s);
    assert s[|s| - 1] == FifoData;
  }

  /** Every mask clears one contiguous run of bits that starts at the field's
      position, and the run is as wide as the field. */
  lemma ConfigFieldsAreRuns()
    ensures forall i :: 0 <= i < |ConfigFields| ==> WellFormed(ConfigFields[i])
    ensures MeasureAutosleepMask == RunMask(6, 1)
    ensures MeasureBandwidthMask == RunMask(0, 3)
    ensures MeasureActprocMask == RunMask(4, 2)
    ensures TimingOdrMask == RunMask(5, 3)
    ensures TimingWurMask == RunMask(2, 3)
    ensures PwrCtrlOpmodeMask == RunMask(0, 2)
    ensures PwrCtrlInstaonThreshMask == RunMask(5, 1)
    ensures PwrCtrlFilterSettleMask == RunMask(4, 1)
  {
  }

  /** Fields that share a register occupy disjoint bits. */
  lemma SharedRegisterFieldsAreDisjoint()
    ensures forall i, j :: 0 <= i < |ConfigFields| && 0 <= j < |ConfigFields| && i != j
              && ConfigFields[i].reg == ConfigFields[j].reg
              ==> !ConfigFields[i].mask & !ConfigFields[j].mask == 0
    ensures !MeasureBandwidthMask | !MeasureActprocMask | !MeasureAutosleepMask == 0x77
    ensures !TimingWurMask | !TimingOdrMask == 0xFC
    ensures !PwrCtrlOpmodeMask | !PwrCtrlFilterSettleMask | !PwrCtrlInstaonThreshMask == 0x33
  {
  }

  /** FIFO_CTL: carry bit 0, a two-bit mode at bits 1-2 and a three-bit format
      at bits 3-5; the three never overlap and together fill bits 0..5. */
  lemma FifoControlLayout()
    ensures FifoCtlSamp8Pos == 0 && FifoCtlModePos == 1 && FifoCtlFormatPos == 3
    ensures RunMask(FifoCtlSamp8Pos, 1) & RunMask(FifoCtlModePos, 2) & RunMask(FifoCtlFormatPos, 3) == 0xC0
    ensures !RunMask(FifoCtlSamp8Pos, 1) & !RunMask(FifoCtlModePos, 2) == 0
    ensures !RunMask(FifoCtlSamp8Pos, 1) & !RunMask(FifoCtlFormatPos, 3) == 0
    ensures !RunMask(FifoCtlModePos, 2) & !RunMask(FifoCtlFormatPos, 3) == 0
  {
  }

  /** Each threshold group is six consecutive addresses starting at its X high
      byte, so a six-byte burst from that byte covers exactly the group, and
      the three groups do not touch the timer registers. */
  lemma ThresholdGroupsAreConsecutive(xh: Reg)
    requires xh in XMsb
    ensures forall k :: 0 <= k < 6 ==> ThresholdGroup(xh)[k] == xh + k
    ensures TimeAct !in ThresholdGroup(xh)
    ensures TimeInactH !in ThresholdGroup(xh) && TimeInactL !in ThresholdGroup(xh)
    ensures xh + 6 <= Hpf
  {
  }

  /** The four STATUS flags are distinct single bits. */
  lemma StatusFlagsAreSingleBits()
    ensures forall i :: 0 <= i < |StatusFlags| ==> StatusFlags[i] != 0 && StatusFlags[i] & (StatusFlags[i] - 1) == 0
    ensures DataRdy & FifoRdy == 0 && DataRdy & FifoFull == 0 && DataRdy & FifoOvr == 0
    ensures FifoRdy & FifoFull == 0 && FifoRdy & FifoOvr == 0 && FifoFull & FifoOvr == 0
  {
  }
}

=== FILE: driver.dfy ===
/** The driver object (adxl372.py class ADXL372): its shadow of the device
    configuration, the read-modify-write helper, the eight single-field
    setters, the identification and status reads, and soft reset. */
module Driver {
  import opened Options
  import opened Defs
  import opened Codec
  import opened Spi
  import opened Enums

  /** The driver's in-memory mirror of the configuration it has written. */
  datatype Shadow = Shadow(
    opMode: OpMode,
    odr: Odr,
    bandwidth: Bandwidth,
    autosleep: bool,
    wakeupRate: Wur,
    activityMode: ActivityMode,
    filterSettle: FilterSettle,
    instantOnThresh: InstantOnThresh,
    actTimeMs: real,
    inactTimeMs: real,
    fifoSamples: int,
    fifoMode: FifoMode,
    fifoFormat: FifoFormat)

  datatype Device = Device(shadow: Shadow, bus: Bus)

  /** The exceptions the driver raises. */
  datatype DriverError =
    | AttributeError(owner: string, name: string)
    | NameError(name: string)
    | ThresholdAddressError(addr: nat)

  /** An operation either returns or raises; in both cases `dev` is the state
      left behind, including any transfers made before the exception. */
  datatype Outcome = Ok(dev: Device) | Raised(error: DriverError, dev: Device)

  /** Constructing the driver either succeeds or raises. */
  datatype Construction = Constructed(dev: Device) | Failed(error: DriverError)

  /** A read operation's value and the state after it. */
  datatype Reading<T> = Reading(dev: Device, value: T)

  /** The shadow a new driver starts with. The FIFO mode and format are the
      intended zero members (the source names members that do not exist). */
  const DefaultShadow := Shadow(
    FullBwMeasurement, Odr400Hz, Bw200Hz, false, Wur52ms, Default,
    FilterSettle370, InstaOnLowThresh, 6.6, 26.0, 0x80, Bypassed, XyzFifo)

  /** Construction as written: the FIFO-mode default looks up `XYZ_FIFO` on
      FIFOMode and the format default looks up `BYPASSED` on FIFOFormat. */
  function InitAsWritten(bus: Bus): (c: Construction)
    ensures c.Constructed? ==> c.dev.bus == bus && c.dev.shadow.(fifoMode := Bypassed, fifoFormat := XyzFifo) == DefaultShadow
    ensures c.Failed? ==> c.error.AttributeError?
  {
    match FifoModeMember("XYZ_FIFO")
    case None => Failed(AttributeError("FIFOMode", "XYZ_FIFO"))
    case Some(mode) =>
      match FifoFormatMember("BYPASSED")
      case None => Failed(AttributeError("FIFOFormat", "BYPASSED"))
      case Some(format) => Constructed(Device(DefaultShadow.(fifoMode := mode, fifoFormat := format), bus))
  }

  /** Construction with the intended defaults. No transfer is made. */
  function Init(bus: Bus): (d: Device)
    ensures d.bus == bus
    ensures d.shadow.fifoMode.Code() == 0 && d.shadow.fifoFormat.Code() == 0
    ensures d.shadow.opMode.Code() == 3 && d.shadow.odr.Code() == 0 && d.shadow.fifoSamples == 0x80
    ensures d.shadow.bandwidth == Bw200Hz && !d.shadow.autosleep && d.shadow.wakeupRate == Wur52ms
    ensures d.shadow.activityMode == Default && d.shadow.filterSettle == FilterSettle370
    ensures d.shadow.instantOnThresh == InstaOnLowThresh
    ensures d.shadow.actTimeMs == 6.6 && d.shadow.inactTimeMs == 26.0
  {
    Device(DefaultShadow, bus)
  }

  /** The field value currently held in the device's register. */
  function FieldValue(bus: Bus, f: Field): nat {
    Extract(Peek(bus.regs, f.reg), f.mask, f.pos)
  }

  /** What a read-modify-write of field `f` with `val` must look like: one
      one-byte read of the register, then one one-byte write of the new byte
      to the same register; the bits the mask keeps are those read, the
      others are those of `val << pos`; no other register changes. */
  ghost predicate RmwFrames(b: Bus, b': Bus, f: Field, val: nat) {
    var nb := Peek(b'.regs, f.reg);
    && b'.trace == b.trace + [ReadFrame(f.reg, 1), WriteFrame(f.reg, [nb])]
    && nb & f.mask == Peek(b.regs, f.reg) & f.mask
    && nb & !f.mask == Shifted(val, f.pos) & !f.mask
    && (forall a: nat :: a != f.reg ==> Peek(b'.regs, a) == Peek(b.regs, a))
  }

  /** `update`: read the register, merge in the field, write it back. */
  function UpdateRegister(bus: Bus, f: Field, val: nat): (r: Bus)
    ensures RmwFrames(bus, r, f, val)
  {
    var (bus', prev) := ReadByte(bus, f.reg);
    var nb := Update(prev, f.mask, f.pos, val);
    var r := Write(bus', f.reg, [nb]);
    assert Peek(r.regs, f.reg) == nb;
    r
  }

  /** After a read-modify-write with a value that fits, the field holds it. */
  lemma RmwStoresValue(b: Bus, b': Bus, f: Field, val: nat)
    requires RmwFrames(b, b', f, val) && Fits(f.mask, f.pos, val)
    ensures FieldValue(b', f) == val
  {
    MergedByteHoldsValue(Peek(b.regs, f.reg), Peek(b'.regs, f.reg), f.mask, f.pos, val);
  }

  lemma MergedByteHoldsValue(prev: bv8, nb: bv8, mask: bv8, pos: nat, val: nat)
    requires nb & mask == prev & mask && nb & !mask == Shifted(val, pos) & !mask
    requires Fits(mask, pos, val)
    ensures Extract(nb, mask, pos) == val
  {
    UpdateIsDetermined(prev, nb, mask, pos, val);
    UpdateThenExtract(prev, mask, pos, val);
  }

  /** The two bit conditions of a read-modify-write determine the new byte. */
  lemma UpdateIsDetermined(prev: bv8, nb: bv8, mask: bv8, pos: nat, val: nat)
    requires nb & mask == prev & mask && nb & !mask == Shifted(val, pos) & !mask
    ensures nb == Update(prev, mask, pos, val)
  {
  }

  function SetOpMode(d: Device, m: OpMode): (r: Device)
    ensures RmwFrames(d.bus, r.bus, OpModeField, m.Code()) && FieldValue(r.bus, OpModeField) == m.Code()
    ensures r.shadow.opMode == m && r.shadow.(opMode := d.shadow.opMode) == d.shadow
  {
    OpModeFits(m);
    var bus := UpdateRegister(d.bus, OpModeField, m.Code());
    RmwStoresValue(d.bus, bus, OpModeField, m.Code());
    Device(d.shadow.(opMode := m), bus)
  }

  function SetOdr(d: Device, o: Odr): (r: Device)
    ensures RmwFrames(d.bus, r.bus, OdrField, o.Code()) && FieldValue(r.bus, OdrField) == o.Code()
    ensures r.shadow.odr == o && r.shadow.(odr := d.shadow.odr) == d.shadow
  {
    OdrFits(o);
    var bus := UpdateRegister(d.bus, OdrField, o.Code());
    RmwStoresValue(d.bus, bus, OdrField, o.Code());
    Device(d.shadow.(odr := o), bus)
  }

  function SetBandwidth(d: Device, bw: Bandwidth): (r: Device)
    ensures RmwFrames(d.bus, r.bus, BandwidthField, bw.Code()) && FieldValue(r.bus, BandwidthField) == bw.Code()
    ensures r.shadow.bandwidth == bw && r.shadow.(bandwidth := d.shadow.bandwidth) == d.shadow
  {
    BandwidthFits(bw);
    var bus := UpdateRegister(d.bus, BandwidthField, bw.Code());
    RmwStoresValue(d.bus, bus, BandwidthField, bw.Code());
    Device(d.shadow.(bandwidth := bw), bus)
  }

  function SetAutosleep(d: Device, enable: bool): (r: Device)
    ensures RmwFrames(d.bus, r.bus, AutosleepField, BoolCode(enable))
    ensures FieldValue(r.bus, AutosleepField) == (if enable then 1 else 0)
    ensures r.shadow.autosleep == enable && r.shadow.(autosleep := d.shadow.autosleep) == d.shadow
  {
    BoolFits(enable);
    var bus := UpdateRegister(d.bus, AutosleepField, BoolCode(enable));
    RmwStoresValue(d.bus, bus, AutosleepField, BoolCode(enable));
    Device(d.shadow.(autosleep := enable), bus)
  }

  function SetWakeupRate(d: Device, w: Wur): (r: Device)
    ensures RmwFrames(d.bus, r.bus, WakeupRateField, w.Code()) && FieldValue(r.bus, WakeupRateField) == w.Code()
    ensures r.shadow.wakeupRate == w && r.shadow.(wakeupRate := d.shadow.wakeupRate) == d.shadow
  {
    WurFits(w);
    var bus := UpdateRegister(d.bus, WakeupRateField, w.Code());
    RmwStoresValue(d.bus, bus, WakeupRateField, w.Code());
    Device(d.shadow.(wakeupRate := w), bus)
  }

  function SetActivityProcessingMode(d: Device, a: ActivityMode): (r: Device)
    ensures RmwFrames(d.bus, r.bus, ActProcField, a.Code()) && FieldValue(r.bus, ActProcField) == a.Code()
    ensures r.shadow.activityMode == a && r.shadow.(activityMode := d.shadow.activityMode) == d.shadow
  {
    ActivityModeFits(a);
    var bus := UpdateRegister(d.bus, ActProcField, a.Code());
    RmwStoresValue(d.bus, bus, ActProcField, a.Code());
    Device(d.shadow.(activityMode := a), bus)
  }

  function SetFilterSettle(d: Device, s: FilterSettle): (r: Device)
    ensures RmwFrames(d.bus, r.bus, FilterSettleField, s.Code()) && FieldValue(r.bus, FilterSettleField) == s.Code()
    ensures r.shadow.filterSettle == s && r.shadow.(filterSettle := d.shadow.filterSettle) == d.shadow
  {
    FilterSettleFits(s);
    var bus := UpdateRegister(d.bus, FilterSettleField, s.Code());
    RmwStoresValue(d.bus, bus, FilterSettleField, s.Code());
    Device(d.shadow.(filterSettle := s), bus)
  }

  function SetInstantOnThresh(d: Device, t: InstantOnThresh): (r: Device)
    ensures RmwFrames(d.bus, r.bus, InstantOnField, t.Code()) && FieldValue(r.bus, InstantOnField) == t.Code()
    ensures r.shadow.instantOnThresh == t && r.shadow.(instantOnThresh := d.shadow.instantOnThresh) == d.shadow
  {
    InstantOnThreshFits(t);
    var bus := UpdateRegister(d.bus, InstantOnField, t.Code());
    RmwStoresValue(d.bus, bus, InstantOnField, t.Code());
    Device(d.shadow.(instantOnThresh := t), bus)
  }

  /** A call of one of the eight single-field setters. */
  datatype Setting =
    | OpModeSetting(opMode: OpMode)
    | OdrSetting(odr: Odr)
    | BandwidthSetting(bandwidth: Bandwidth)
    | AutosleepSetting(enable: bool)
    | WakeupRateSetting(rate: Wur)
    | ActivityModeSetting(mode: ActivityMode)
    | FilterSettleSetting(settle: FilterSettle)
    | InstantOnSetting(thresh: InstantOnThresh)
  {
    function FieldOf(): Field {
      match this
      case OpModeSetting(_) => OpModeField
      case OdrSetting(_) => OdrField
      case BandwidthSetting(_) => BandwidthField
      case AutosleepSetting(_) => AutosleepField
      case WakeupRateSetting(_) => WakeupRateField
      case ActivityModeSetting(_) => ActProcField
      case FilterSettleSetting(_) => FilterSettleField
      case InstantOnSetting(_) => InstantOnField
    }

    function CodeOf(): nat {
      match this
      case OpModeSetting(m) => m.Code()
      case OdrSetting(o) => o.Code()
      case BandwidthSetting(bw) => bw.Code()
      case AutosleepSetting(e) => BoolCode(e)
      case WakeupRateSetting(w) => w.Code()
      case ActivityModeSetting(a) => a.Code()
      case FilterSettleSetting(s) => s.Code()
      case InstantOnSetting(t) => t.Code()
    }
  }

  function Apply(d: Device, s: Setting): Device {
    match s
    case OpModeSetting(m) => SetOpMode(d, m)
    case OdrSetting(o) => SetOdr(d, o)
    case BandwidthSetting(bw) => SetBandwidth(d, bw)
    case AutosleepSetting(e) => SetAutosleep(d, e)
    case WakeupRateSetting(w) => SetWakeupRate(d, w)
    case ActivityModeSetting(a) => SetActivityProcessingMode(d, a)
    case FilterSettleSetting(st) => SetFilterSettle(d, st)
    case InstantOnSetting(t) => SetInstantOnThresh(d, t)
  }

  /** Every setter is one read-modify-write of its own field with its code,
      after which the register holds that code. */
  lemma SetterIsOneFieldUpdate(d: Device, s: Setting)
    ensures RmwFrames(d.bus, Apply(d, s).bus, s.FieldOf(), s.CodeOf())
    ensures FieldValue(Apply(d, s).bus, s.FieldOf()) == s.CodeOf()
  {
  }

  /** Calling a setter twice with the same value leaves the same registers
      and the same shadow as calling it once. */
  lemma SetterIsIdempotent(d: Device, s: Setting)
    ensures Apply(Apply(d, s), s).shadow == Apply(d, s).shadow
    ensures forall a: nat :: Peek(Apply(Apply(d, s), s).bus.regs, a) == Peek(Apply(d, s).bus.regs, a)
  {
    ApplyIsUpdate(d, s);
    ApplyIsUpdate(Apply(d, s), s);
    UpdateRegisterIsIdempotent(d.bus, s.FieldOf(), s.CodeOf());
  }

  lemma ApplyIsUpdate(d: Device, s: Setting)
    ensures Apply(d, s).bus == UpdateRegister(d.bus, s.FieldOf(), s.CodeOf())
  {
  }

  /** A second identical read-modify-write rewrites the byte it reads. */
  lemma UpdateRegisterIsIdempotent(b: Bus, f: Field, val: nat)
    ensures forall a: nat :: Peek(UpdateRegister(UpdateRegister(b, f, val), f, val).regs, a)
                             == Peek(UpdateRegister(b, f, val).regs, a)
  {
    var b1 := UpdateRegister(b, f, val);
    RmwTwiceKeepsRegisters(b, b1, UpdateRegister(b1, f, val), f, val);
  }

  lemma RmwTwiceKeepsRegisters(b: Bus, b1: Bus, b2: Bus, f: Field, val: nat)
    requires RmwFrames(b, b1, f, val) && RmwFrames(b1, b2, f, val)
    ensures forall a: nat :: Peek(b2.regs, a) == Peek(b1.regs, a)
  {
    SameBits(Peek(b2.regs, f.reg), Peek(b1.regs, f.reg), f.mask);
  }

  lemma SameBits(x: bv8, y: bv8, mask: bv8)
    requires x & mask == y & mask && x & !mask == y & !mask
    ensures x == y
  {
  }

  /** `get_dev_id`, `get_status`, `get_activity_status`: one-byte reads. */
  function ReadRegister(d: Device, reg: Reg): (r: Reading<bv8>)
    ensures r.value == Peek(d.bus.regs, reg)
    ensures r.dev.shadow == d.shadow && r.dev.bus.regs == d.bus.regs
    ensures r.dev.bus.trace == d.bus.trace + [ReadFrame(reg, 1)]
  {
    var (bus', v) := ReadByte(d.bus, reg);
    Reading(Device(d.shadow, bus'), v)
  }

  function GetDevId(d: Device): (r: Reading<bv8>)
    ensures r.value == Peek(d.bus.regs, AdiDevId) && r.dev.bus.trace == d.bus.trace + [ReadFrame(AdiDevId, 1)]
  {
    ReadRegister(d, AdiDevId)
  }

  function GetStatus(d: Device): (r: Reading<bv8>)
    ensures r.value == Peek(d.bus.regs, Status1) && r.dev.bus.trace == d.bus.trace + [ReadFrame(Status1, 1)]
  {
    ReadRegister(d, Status1)
  }

  function GetActivityStatus(d: Device): (r: Reading<bv8>)
    ensures r.value == Peek(d.bus.regs, Status2) && r.dev.bus.trace == d.bus.trace + [ReadFrame(Status2, 1)]
  {
    ReadRegister(d, Status2)
  }

  /** The soft-reset command code. */
  const ResetCode: bv8 := 0x52

  /** `reset` as written: one write of the reset code; the shadow is kept. */
  function ResetAsWritten(d: Device): (r: Device)
    ensures r.shadow == d.shadow
    ensures r.bus.trace == d.bus.trace + [WriteFrame(SReset, [ResetCode])]
  {
    Device(d.shadow, Write(d.bus, SReset, [ResetCode]))
  }

  /** `reset` with the shadow returned to the power-on defaults, matching the
      chip, which returns to its power-on configuration. */
  function Reset(d: Device): (r: Device)
    ensures r.shadow == Init(d.bus).shadow
    ensures r.bus.trace == d.bus.trace + [WriteFrame(SReset, [ResetCode])]
  {
    Device(DefaultShadow, Write(d.bus, SReset, [ResetCode]))
  }
}

=== FILE: enums.dfy ===
/** The driver's closed configuration domains (adxl372.py:10-76), each with
    its fixed register code, and the promise that every code fits the
    bitfield the driver writes it to. */
module Enums {
  import opened Options
  import opened Defs
  import opened Codec

  datatype OpMode = StandBy | WakeUp | InstantOn | FullBwMeasurement {
    function Code(): (c: nat)
      ensures c < 4
    {
      match this
      case StandBy => 0
      case WakeUp => 1
      case InstantOn => 2
      case FullBwMeasurement => 3
    }
  }

  /** Output data rate. */
  datatype Odr = Odr400Hz | Odr800Hz | Odr1600Hz | Odr3200Hz | Odr6400Hz {
    function Code(): (c: nat)
      ensures c <= 4
    {
      match this
      case Odr400Hz => 0
      case Odr800Hz => 1
      case Odr1600Hz => 2
      case Odr3200Hz => 3
      case Odr6400Hz => 4
    }
  }

  /** Bandwidth of the internal low-pass filters. */
  datatype Bandwidth = Bw200Hz | Bw400Hz | Bw800Hz | Bw1600Hz | Bw3200Hz {
    function Code(): (c: nat)
      ensures c <= 4
    {
      match this
      case Bw200Hz => 0
      case Bw400Hz => 1
      case Bw800Hz => 2
      case Bw1600Hz => 3
      case Bw3200Hz => 4
    }
  }

  /** Length of the sleep phase of wake-up mode. */
  datatype Wur = Wur52ms | Wur104ms | Wur208ms | Wur512ms | Wur2048ms | Wur4096ms | Wur8192ms | Wur24576ms {
    function Code(): (c: nat)
      ensures c < 8
    {
      match this
      case Wur52ms => 0
      case Wur104ms => 1
      case Wur208ms => 2
      case Wur512ms => 3
      case Wur2048ms => 4
      case Wur4096ms => 5
      case Wur8192ms => 6
      case Wur24576ms => 7
    }
  }

  /** How activity and inactivity detection interact. */
  datatype ActivityMode = Default | Linked | Looped {
    function Code(): (c: nat)
      ensures c <= 2
    {
      match this
      case Default => 0
      case Linked => 1
      case Looped => 2
    }
  }

  /** Sample format held in the FIFO. */
  datatype FifoFormat = XyzFifo | XFifo | YFifo | XyFifo | ZFifo | XzFifo | YzFifo | XyzPeakFifo {
    function Code(): (c: nat)
      ensures c < 8
    {
      match this
      case XyzFifo => 0
      case XFifo => 1
      case YFifo => 2
      case XyFifo => 3
      case ZFifo => 4
      case XzFifo => 5
      case YzFifo => 6
      case XyzPeakFifo => 7
    }
  }

  /** How the FIFO fills. */
  datatype FifoMode = Bypassed | Streamed | Triggered | OldestSaved {
    function Code(): (c: nat)
      ensures c < 4
    {
      match this
      case Bypassed => 0
      case Streamed => 1
      case Triggered => 2
      case OldestSaved => 3
    }
  }

  /** Impact threshold of instant-on mode. */
  datatype InstantOnThresh = InstaOnLowThresh | InstaOnHighThresh {
    function Code(): (c: nat)
      ensures c < 2
    {
      match this
      case InstaOnLowThresh => 0
      case InstaOnHighThresh => 1
    }
  }

  /** Filter settling time after wake-up. */
  datatype FilterSettle = FilterSettle370 | FilterSettle16 {
    function Code(): (c: nat)
      ensures c < 2
    {
      match this
      case FilterSettle370 => 0
      case FilterSettle16 => 1
    }
  }

  /** The driver writes a boolean as `int(enable)`. */
  function BoolCode(b: bool): (c: nat)
    ensures c < 2
  {
    if b then 1 else 0
  }

  // Every code fits its field. These are kept out of the `Code` contracts so
  // that the bit-level facts enter a proof only where a field is written.
  // Each proof first names the field's literal mask and position.

  lemma OpModeCodesFit()
    ensures Fits(0xFC, 0, 0) && Fits(0xFC, 0, 1) && Fits(0xFC, 0, 2) && Fits(0xFC, 0, 3)
  {
  }

  lemma OpModeFits(v: OpMode)
    ensures Fits(OpModeField.mask, OpModeField.pos, v.Code())
  {
    assert OpModeField.mask == 0xFC && OpModeField.pos == 0;
    OpModeCodesFit();
    match v
    case StandBy =>
    case WakeUp =>
    case InstantOn =>
    case FullBwMeasurement =>
  }

  lemma OdrCodesFit()
    ensures Fits(0x1F, 5, 0) && Fits(0x1F, 5, 1) && Fits(0x1F, 5, 2) && Fits(0x1F, 5, 3) && Fits(0x1F, 5, 4)
  {
  }

  lemma OdrFits(v: Odr)
    ensures Fits(OdrField.mask, OdrField.pos, v.Code())
  {
    assert OdrField.mask == 0x1F && OdrField.pos == 5;
    OdrCodesFit();
    match v
    case Odr400Hz =>
    case Odr800Hz =>
    case Odr1600Hz =>
    case Odr3200Hz =>
    case Odr6400Hz =>
  }

  lemma BandwidthCodesFit()
    ensures Fits(0xF8, 0, 0) && Fits(0xF8, 0, 1) && Fits(0xF8, 0, 2) && Fits(0xF8, 0, 3) && Fits(0xF8, 0, 4)
  {
  }

  lemma BandwidthFits(v: Bandwidth)
    ensures Fits(BandwidthField.mask, BandwidthField.pos, v.Code())
  {
    assert BandwidthField.mask == 0xF8 && BandwidthField.pos == 0;
    BandwidthCodesFit();
    match v
    case Bw200Hz =>
    case Bw400Hz =>
    case Bw800Hz =>
    case Bw1600Hz =>
    case Bw3200Hz =>
  }

  lemma WurCodesFit()
    ensures Fits(0xE3, 2, 0) && Fits(0xE3, 2, 1) && Fits(0xE3, 2, 2) && Fits(0xE3, 2, 3) && Fits(0xE3, 2, 4) && Fits(0xE3, 2, 5) && Fits(0xE3, 2, 6) && Fits(0xE3, 2, 7)
  {
  }

  lemma WurFits(v: Wur)
    ensures Fits(WakeupRateField.mask, WakeupRateField.pos, v.Code())
  {
    assert WakeupRateField.mask == 0xE3 && WakeupRateField.pos == 2;
    WurCodesFit();
    match v
    case Wur52ms =>
    case Wur104ms =>
    case Wur208ms =>
    case Wur512ms =>
    case Wur2048ms =>
    case Wur4096ms =>
    case Wur8192ms =>
    case Wur24576ms =>
  }

  lemma ActivityModeCodesFit()
    ensures Fits(0xCF, 4, 0) && Fits(0xCF, 4, 1) && Fits(0xCF, 4, 2)
  {
  }

  lemma ActivityModeFits(v: ActivityMode)
    ensures Fits(ActProcField.mask, ActProcField.pos, v.Code())
  {
    assert ActProcField.mask == 0xCF && ActProcField.pos == 4;
    ActivityModeCodesFit();
    match v
    case Default =>
    case Linked =>
    case Looped =>
  }

  lemma InstantOnThreshFits(v: InstantOnThresh)
    ensures Fits(InstantOnField.mask, InstantOnField.pos, v.Code())
  {
    assert InstantOnField.mask == 0xDF && InstantOnField.pos == 5;
  }

  lemma FilterSettleFits(v: FilterSettle)
    ensures Fits(FilterSettleField.mask, FilterSettleField.pos, v.Code())
  {
    assert FilterSettleField.mask == 0xEF && FilterSettleField.pos == 4;
  }

  lemma BoolFits(b: bool)
    ensures Fits(AutosleepField.mask, AutosleepField.pos, BoolCode(b))
  {
    assert AutosleepField.mask == 0xBF && AutosleepField.pos == 6;
  }

  /** Looking up a FIFOMode member by its source name. */
  function FifoModeMember(name: string): (m: Option<FifoMode>)
    ensures m.Some? <==> name in {"BYPASSED", "STREAMED", "TRIGGERED", "OLDEST_SAVED"}
  {
    if name == "BYPASSED" then Some(Bypassed)
    else if name == "STREAMED" then Some(Streamed)
    else if name == "TRIGGERED" then Some(Triggered)
    else if name == "OLDEST_SAVED" then Some(OldestSaved)
    else None
  }

  /** Looking up a FIFOFormat member by its source name. */
  function FifoFormatMember(name: string): (f: Option<FifoFormat>)
    ensures f.Some? <==> name in {"XYZ_FIFO", "X_FIFO", "Y_FIFO", "XY_FIFO", "Z_FIFO", "XZ_FIFO", "YZ_FIFO", "XYZ_PEAK_FIFO"}
  {
    if name == "XYZ_FIFO" then Some(XyzFifo)
    else if name == "X_FIFO" then Some(XFifo)
    else if name == "Y_FIFO" then Some(YFifo)
    else if name == "XY_FIFO" then Some(XyFifo)
    else if name == "Z_FIFO" then Some(ZFifo)
    else if name == "XZ_FIFO" then Some(XzFifo)
    else if name == "YZ_FIFO" then Some(YzFifo)
    else if name == "XYZ_PEAK_FIFO" then Some(XyzPeakFifo)
    else None
  }

  /** Distinct members of a domain have distinct codes, so a code read back
      from a register identifies the member. */
  lemma CodesAreInjective()
    ensures forall a: OpMode, b: OpMode :: a.Code() == b.Code() ==> a == b
    ensures forall a: Odr, b: Odr :: a.Code() == b.Code() ==> a == b
    ensures forall a: Bandwidth, b: Bandwidth :: a.Code() == b.Code() ==> a == b
    ensures forall a: Wur, b: Wur :: a.Code() == b.Code() ==> a == b
    ensures forall a: ActivityMode, b: ActivityMode :: a.Code() == b.Code() ==> a == b
    ensures forall a: FifoFormat, b: FifoFormat :: a.Code() == b.Code() ==> a == b
    ensures forall a: FifoMode, b: FifoMode :: a.Code() == b.Code() ==> a == b
    ensures forall a: InstantOnThresh, b: InstantOnThresh :: a.Code() == b.Code() ==> a == b
    ensures forall a: FilterSettle, b: FilterSettle :: a.Code() == b.Code() ==> a == b
  {
  }
}

=== FILE: fifo.dfy ===
/** FIFO configuration (adxl372.py `configure_fifo`): the depth, mode and
    sample format, written to FIFO_SAMPLES and FIFO_CTL while the device is
    in standby, after which the device is put back into full-bandwidth
    measurement. */
module Fifo {
  import opened Defs
  import opened Codec
  import opened Spi
  import opened Enums
  import opened Driver

  /** The requested depth as the source clamps it: above 512 or below 0
      becomes 512, which lets 0 through. */
  function ClampDepthAsWritten(samples: int): (n: int)
    ensures 0 <= n <= 512
    ensures 0 <= samples <= 512 ==> n == samples
    ensures !(0 <= samples <= 512) ==> n == 512
  {
    if samples > 512 || samples < 0 then 512 else samples
  }

  /** The clamp as intended: a depth outside 1..512 becomes 512. */
  function ClampDepth(samples: int): (n: int)
    ensures 1 <= n <= 512
    ensures n == (if 1 <= samples <= 512 then samples else 512)
  {
    if samples > 512 || samples < 1 then 512 else samples
  }

  /** What the device reads from FIFO_SAMPLES and FIFO_CTL: the depth (the
      stored count is one less, its ninth bit in bit 0 of FIFO_CTL), the
      mode code in bits 2..1 and the format code in bits 5..3. */
  function StoredDepth(lo: bv8, ctl: bv8): nat {
    ctl as nat % 2 * 256 + lo as nat + 1
  }

  function StoredMode(ctl: bv8): nat {
    ctl as nat / 2 % 4
  }

  function StoredFormat(ctl: bv8): nat {
    ctl as nat / 8 % 8
  }

  /** The FIFO_SAMPLES byte for a clamped depth `n`: `(n - 1) & 0xFF`, the
      low eight bits of the stored count. A depth of 0 wraps to 0xFF. */
  function SamplesByte(n: int): (b: bv8)
    ensures 1 <= n <= 256 ==> b as nat == n - 1
    ensures 257 <= n <= 512 ==> b as nat == n - 257
    ensures n == 0 ==> b as nat == 0xFF
  {
    ToByte((n - 1) % 256)
  }

  /** The FIFO_CTL byte: mode, format and the ninth bit of `n - 1`. */
  function ControlByte(n: int, mode: FifoMode, format: FifoFormat): (c: bv8)
    ensures c as nat < 64
    ensures c as nat % 2 == (if n - 1 > 0xFF then 1 else 0)
    ensures StoredMode(c) == mode.Code() && StoredFormat(c) == format.Code()
  {
    var carry := if n - 1 > 0xFF then 1 else 0;
    var v := mode.Code() * Pow2(FifoCtlModePos) + format.Code() * Pow2(FifoCtlFormatPos) + carry * Pow2(FifoCtlSamp8Pos);
    ControlMultipliers();
    ControlArith(mode.Code(), format.Code(), carry);
    ToByte(v)
  }

  /** The weights of the carry, mode and format fields in FIFO_CTL. */
  lemma ControlMultipliers()
    ensures Pow2(FifoCtlSamp8Pos) == 1 && Pow2(FifoCtlModePos) == 2 && Pow2(FifoCtlFormatPos) == 8
  {
  }

  lemma ControlArith(m: nat, f: nat, carry: nat)
    requires m < 4 && f < 8 && carry < 2
    ensures var v := m * 2 + f * 8 + carry;
      v < 64 && v % 2 == carry && v / 2 % 4 == m && v / 8 % 8 == f
  {
  }

  /** For every depth the driver can produce, the device reads back the
      depth, the mode and the format. */
  lemma FifoBytesRoundTrip(n: int, mode: FifoMode, format: FifoFormat)
    requires 1 <= n <= 512
    ensures StoredDepth(SamplesByte(n), ControlByte(n, mode, format)) == n
    ensures StoredMode(ControlByte(n, mode, format)) == mode.Code()
    ensures StoredFormat(ControlByte(n, mode, format)) == format.Code()
  {
  }

  /** The two FIFO register writes of `configure_fifo` for a clamped depth
      `n`, and the settings the driver records with them. */
  function WriteFifoRegisters(d: Device, n: int, mode: FifoMode, format: FifoFormat): (r: Device)
    ensures r.bus.trace == d.bus.trace + [WriteFrame(FifoSamples, [SamplesByte(n)]), WriteFrame(FifoCtl, [ControlByte(n, mode, format)])]
    ensures Peek(r.bus.regs, FifoSamples) == SamplesByte(n)
    ensures Peek(r.bus.regs, FifoCtl) == ControlByte(n, mode, format)
    ensures forall a: nat :: a != FifoSamples && a != FifoCtl ==> Peek(r.bus.regs, a) == Peek(d.bus.regs, a)
    ensures r.shadow == d.shadow.(fifoSamples := n, fifoMode := mode, fifoFormat := format)
  {
    var bus1 := Write(d.bus, FifoSamples, [SamplesByte(n)]);
    var bus2 := Write(bus1, FifoCtl, [ControlByte(n, mode, format)]);
    Device(d.shadow.(fifoSamples := n, fifoMode := mode, fifoFormat := format), bus2)
  }

  /** The part of `configure_fifo` after the clamp: the FIFO writes, then
      the return to full-bandwidth measurement. */
  function FifoTail(d: Device, n: int, mode: FifoMode, format: FifoFormat): (r: Device)
    ensures |r.bus.trace| == |d.bus.trace| + 4
    ensures var t := d.bus.trace;
      r.bus.trace[..|t| + 2] == t + [WriteFrame(FifoSamples, [SamplesByte(n)]), WriteFrame(FifoCtl, [ControlByte(n, mode, format)])]
    ensures Peek(r.bus.regs, FifoSamples) == SamplesByte(n)
    ensures Peek(r.bus.regs, FifoCtl) == ControlByte(n, mode, format)
    ensures FieldValue(r.bus, OpModeField) == FullBwMeasurement.Code()
    ensures Peek(r.bus.regs, PowerCtl) & OpModeField.mask == Peek(d.bus.regs, PowerCtl) & OpModeField.mask
    ensures forall a: nat :: a != PowerCtl && a != FifoSamples && a != FifoCtl ==> Peek(r.bus.regs, a) == Peek(d.bus.regs, a)
    ensures r.shadow == d.shadow.(opMode := FullBwMeasurement, fifoSamples := n, fifoMode := mode, fifoFormat := format)
  {
    var w := WriteFifoRegisters(d, n, mode, format);
    var r := SetOpMode(w, FullBwMeasurement);
    assert r.bus.trace[..|w.bus.trace|] == w.bus.trace;
    r
  }

  /** The locals of `configure_fifo` when FIFO_CTL is assembled. */
  const ConfigureFifoLocals: set<string> := {"self", "samples", "mode", "qformat", "samples_msb"}

  /** The name the control byte uses is not one of the function's locals. */
  lemma MsbNameIsNotLocal()
    ensures "samples_MSB" !in ConfigureFifoLocals
  {
    assert "samples_MSB" != "samples_msb";
  }

  /** `configure_fifo` as written: after the standby read-modify-write, the
      control byte names `samples_MSB` where the local is `samples_msb`, so
      the call raises before either FIFO register is written. */
  function ConfigureFifoAsWritten(d: Device, samples: int, mode: FifoMode, format: FifoFormat): (r: Outcome)
    ensures r.Raised? && r.error == NameError("samples_MSB")
    ensures r.Raised? ==> r.dev == SetOpMode(d, StandBy)
    ensures r.Raised? ==>
      && Peek(r.dev.bus.regs, FifoSamples) == Peek(d.bus.regs, FifoSamples)
      && Peek(r.dev.bus.regs, FifoCtl) == Peek(d.bus.regs, FifoCtl)
      && r.dev.shadow.fifoSamples == d.shadow.fifoSamples
      && r.dev.shadow.fifoMode == d.shadow.fifoMode
      && r.dev.shadow.fifoFormat == d.shadow.fifoFormat
  {
    var standby := SetOpMode(d, StandBy);
    MsbNameIsNotLocal();
    if "samples_MSB" in ConfigureFifoLocals then
      Ok(FifoTail(standby, ClampDepthAsWritten(samples), mode, format))
    else
      Raised(NameError("samples_MSB"), standby)
  }

  /** `configure_fifo` with the local name and the clamp corrected. The
      device reads back the clamped depth, the mode and the format, is left
      measuring, and no register other than the three it touches changes. */
  function ConfigureFifo(d: Device, samples: int, mode: FifoMode, format: FifoFormat): (r: Device)
    ensures StoredDepth(Peek(r.bus.regs, FifoSamples), Peek(r.bus.regs, FifoCtl)) == ClampDepth(samples)
    ensures StoredMode(Peek(r.bus.regs, FifoCtl)) == mode.Code()
    ensures StoredFormat(Peek(r.bus.regs, FifoCtl)) == format.Code()
    ensures FieldValue(r.bus, OpModeField) == FullBwMeasurement.Code()
    ensures Peek(r.bus.regs, PowerCtl) & OpModeField.mask == Peek(d.bus.regs, PowerCtl) & OpModeField.mask
    ensures forall a: nat :: a != PowerCtl && a != FifoSamples && a != FifoCtl ==> Peek(r.bus.regs, a) == Peek(d.bus.regs, a)
    ensures r.shadow == d.shadow.(opMode := FullBwMeasurement, fifoSamples := ClampDepth(samples), fifoMode := mode, fifoFormat := format)
  {
    var n := ClampDepth(samples);
    var standby := SetOpMode(d, StandBy);
    FifoBytesRoundTrip(n, mode, format);
    FifoTail(standby, n, mode, format)
  }

  /** The order of transfers: the standby read-modify-write (whose written
      byte carries the standby code), the two FIFO writes, then the
      read-modify-write back to measurement. */
  lemma ConfigureFifoTransfers(d: Device, samples: int, mode: FifoMode, format: FifoFormat)
    ensures var r := ConfigureFifo(d, samples, mode, format);
      var t := d.bus.trace;
      && |r.bus.trace| == |t| + 6
      && r.bus.trace[..|t|] == t
      && r.bus.trace[|t|] == ReadFrame(PowerCtl, 1)
      && |r.bus.trace[|t| + 1]| == 2 && r.bus.trace[|t| + 1][0] == Header(PowerCtl, false)
      && Extract(r.bus.trace[|t| + 1][1], OpModeField.mask, OpModeField.pos) == StandBy.Code()
      && r.bus.trace[|t| + 2] == WriteFrame(FifoSamples, [SamplesByte(ClampDepth(samples))])
      && r.bus.trace[|t| + 3] == WriteFrame(FifoCtl, [ControlByte(ClampDepth(samples), mode, format)])
      && r.bus.trace[|t| + 1][1] & OpModeField.mask == Peek(d.bus.regs, PowerCtl) & OpModeField.mask
      && r.bus.trace[|t| + 4] == ReadFrame(PowerCtl, 1)
      && r.bus.trace[|t| + 5] == WriteFrame(PowerCtl, [Peek(r.bus.regs, PowerCtl)])
  {
    var n := ClampDepth(samples);
    var standby := SetOpMode(d, StandBy);
    StandbyFrame(d.bus, standby.bus);
    var r := FifoTail(standby, n, mode, format);
    var t := d.bus.trace;
    var ts := standby.bus.trace;
    assert r.bus.trace[..|ts| + 2][..|ts|] == ts;
    assert r.bus.trace[..|ts|] == ts;
    assert r.bus.trace[..|t|] == ts[..|t|];
    assert r.bus.trace[|t|] == ts[|t|] && r.bus.trace[|t| + 1] == ts[|t| + 1];
    assert r.bus.trace[|t| + 2] == r.bus.trace[..|ts| + 2][|ts|];
    assert r.bus.trace[|t| + 3] == r.bus.trace[..|ts| + 2][|ts| + 1];
    TailEndsWithRead(standby, n, mode, format);
  }

  /** The return to measurement starts with a read of POWER_CTL. */
  lemma TailEndsWithRead(d: Device, n: int, mode: FifoMode, format: FifoFormat)
    ensures var r := FifoTail(d, n, mode, format);
      && |r.bus.trace| == |d.bus.trace| + 4
      && r.bus.trace[|d.bus.trace| + 2] == ReadFrame(PowerCtl, 1)
      && r.bus.trace[|d.bus.trace| + 3] == WriteFrame(PowerCtl, [Peek(r.bus.regs, PowerCtl)])
  {
    var w := WriteFifoRegisters(d, n, mode, format);
    var r := SetOpMode(w, FullBwMeasurement);
    assert r.bus.trace[|w.bus.trace|] == ReadFrame(PowerCtl, 1);
    assert r.bus.trace[|w.bus.trace| + 1] == WriteFrame(PowerCtl, [Peek(r.bus.regs, PowerCtl)]);
  }

  /** The write frame of the standby read-modify-write carries the standby
      code. */
  lemma StandbyFrame(b: Bus, b': Bus)
    requires RmwFrames(b, b', OpModeField, StandBy.Code())
    requires FieldValue(b', OpModeField) == StandBy.Code()
    ensures var f := b'.trace[|b.trace| + 1];
      && |b'.trace| == |b.trace| + 2
      && b'.trace[|b.trace|] == ReadFrame(PowerCtl, 1)
      && |f| == 2 && f[0] == Header(PowerCtl, false)
      && Extract(f[1], OpModeField.mask, OpModeField.pos) == StandBy.Code()
      && f[1] & OpModeField.mask == Peek(b.regs, PowerCtl) & OpModeField.mask
  {
    var nb := Peek(b'.regs, PowerCtl);
    assert b'.trace[|b.trace| + 1] == WriteFrame(PowerCtl, [nb]);
  }

  /** The largest depth uses the ninth bit; a depth of one stores zero. */
  lemma FifoExamples(mode: FifoMode, format: FifoFormat)
    ensures SamplesByte(512) as nat == 0xFF && ControlByte(512, mode, format) as nat % 2 == 1
    ensures SamplesByte(1) as nat == 0 && ControlByte(1, mode, format) as nat % 2 == 0
  {
    assert SamplesByte(512) as nat == 0xFF && SamplesByte(1) as nat == 0;
    var hi := ControlByte(512, mode, format);
    assert hi as nat % 2 == 1;
    var lo := ControlByte(1, mode, format);
    assert lo as nat % 2 == 0;
  }
}

=== FILE: findings.dfy ===
/** Defects of the driver as written, each shown on a concrete input and set
    against the corrected definition the rest of the model uses. */
module Findings {
  import opened Options
  import opened Defs
  import opened Codec
  import opened Spi
  import opened Enums
  import opened Driver
  import opened Timers
  import opened Fifo

  /** Construction as written always fails: FIFOMode has no member XYZ_FIFO. */
  lemma InitAsWrittenFails(bus: Bus)
    ensures InitAsWritten(bus) == Failed(AttributeError("FIFOMode", "XYZ_FIFO"))
  {
    assert FifoModeMember("XYZ_FIFO").None?;
  }

  /** Even with the mode lookup fixed, FIFOFormat has no member BYPASSED:
      the two names are swapped between the two classes. */
  lemma DefaultNamesAreSwapped()
    ensures FifoModeMember("BYPASSED") == Some(Bypassed) && FifoFormatMember("XYZ_FIFO") == Some(XyzFifo)
    ensures FifoFormatMember("BYPASSED").None?
  {
  }

  /** The corrected construction records Bypassed and XYZ, whose codes are
      the zero the registers hold after power-on. */
  lemma InitHasIntendedFifoDefaults(bus: Bus)
    ensures Init(bus).shadow.fifoMode == Bypassed && Init(bus).shadow.fifoFormat == XyzFifo
    ensures Init(bus).shadow.fifoMode.Code() == 0 && Init(bus).shadow.fifoFormat.Code() == 0
  {
  }

  /** `configure_fifo` as written raises on every input, after the standby
      read-modify-write and before either FIFO register is written. */
  lemma ConfigureFifoAsWrittenAlwaysRaises(d: Device, samples: int, mode: FifoMode, format: FifoFormat)
    ensures var r := ConfigureFifoAsWritten(d, samples, mode, format);
      && r.Raised? && r.error == NameError("samples_MSB")
      && r.dev == SetOpMode(d, StandBy)
      && FieldValue(r.dev.bus, OpModeField) == StandBy.Code()
      && Peek(r.dev.bus.regs, FifoSamples) == Peek(d.bus.regs, FifoSamples)
      && Peek(r.dev.bus.regs, FifoCtl) == Peek(d.bus.regs, FifoCtl)
      && r.dev.shadow.fifoSamples == d.shadow.fifoSamples
  {
    assert "samples_MSB" !in ConfigureFifoLocals;
  }

  /** The clamp as written lets a depth of 0 through, and the bytes computed
      for it are 0xFF with the ninth bit clear, which encode 256 samples. */
  lemma ClampAsWrittenAcceptsZero(mode: FifoMode, format: FifoFormat)
    ensures ClampDepthAsWritten(0) == 0
    ensures SamplesByte(ClampDepthAsWritten(0)) == 0xFF
    ensures ControlByte(ClampDepthAsWritten(0), mode, format) as nat % 2 == 0
    ensures StoredDepth(SamplesByte(0), ControlByte(0, mode, format)) == 256
  {
  }

  /** Once the name at line 456 is corrected, the rest of `configure_fifo` as
      written runs on a request of 0: the device is left holding 256 samples
      while the shadow records a depth of 0. */
  lemma ZeroDepthOnceNameFixed(d: Device, mode: FifoMode, format: FifoFormat)
    ensures var r := FifoTail(SetOpMode(d, StandBy), ClampDepthAsWritten(0), mode, format);
      && r.shadow.fifoSamples == 0
      && StoredDepth(Peek(r.bus.regs, FifoSamples), Peek(r.bus.regs, FifoCtl)) == 256
  {
    ClampAsWrittenAcceptsZero(mode, format);
  }

  /** With the clamp as written, the FIFO registers of the shadow's depth
      read back that depth exactly when the depth is not 0. */
  lemma ClampAsWrittenRoundTripsExceptZero(samples: int, mode: FifoMode, format: FifoFormat)
    ensures var n := ClampDepthAsWritten(samples);
      StoredDepth(SamplesByte(n), ControlByte(n, mode, format)) == n <==> n != 0
  {
    var n := ClampDepthAsWritten(samples);
    if n != 0 {
      FifoBytesRoundTrip(n, mode, format);
    }
  }

  /** With the corrected clamp every request reads back as the shadow
      records it, 0 included (it becomes the maximum). */
  lemma ClampRoundTrips(samples: int, mode: FifoMode, format: FifoFormat)
    ensures var n := ClampDepth(samples);
      && StoredDepth(SamplesByte(n), ControlByte(n, mode, format)) == n
      && (samples == 0 ==> n == 512)
  {
    FifoBytesRoundTrip(ClampDepth(samples), mode, format);
  }

  /** `reset` as written keeps a 6400 Hz data rate in the shadow while the
      chip returns to 400 Hz, so a later 6.6 ms activity time is written as
      two periods of the 3.3 ms timer rather than one of the 6.6 ms timer. */
  lemma ResetAsWrittenLeavesStaleRate(d: Device)
    ensures ResetAsWritten(SetOdr(d, Odr6400Hz)).shadow.odr == Odr6400Hz
    ensures Init(d.bus).shadow.odr == Odr400Hz
    ensures var r := SetActivityTime(ResetAsWritten(SetOdr(d, Odr6400Hz)), 6.6);
      Peek(r.bus.regs, TimeAct) as nat == 2
  {
    ActivityPeriodsDependOnRate();
  }

  /** The corrected `reset` returns the shadow to the power-on defaults, so
      the activity timer is converted at the power-on rate. */
  lemma ResetRestoresRate(d: Device, ms: real)
    requires ms >= 0.0
    ensures Reset(d).shadow.odr == Odr400Hz
    ensures Peek(SetActivityTime(Reset(d), ms).bus.regs, TimeAct) as nat == ActivityPeriods(ms, Odr400Hz)
    ensures Peek(SetActivityTime(Reset(SetOdr(d, Odr6400Hz)), 6.6).bus.regs, TimeAct) as nat == 1
  {
    TimerExamples();
  }
}

=== FILE: invariants.dfy ===
/** The agreement between the driver's shadow and the device's registers.
    The driver never reads its configuration back: it answers from the
    shadow (for example, the timer period follows the shadow's data rate).
    These lemmas show which operations keep the shadow truthful. */
module Invariants {
  import opened Defs
  import opened Codec
  import opened Spi
  import opened Enums
  import opened Driver
  import opened Threshold
  import opened Timers
  import opened Fifo

  /** The shadow's code for field `i` of `ConfigFields`. */
  function ShadowCode(sh: Shadow, i: nat): nat {
    if i == 0 then sh.opMode.Code()
    else if i == 1 then sh.odr.Code()
    else if i == 2 then sh.bandwidth.Code()
    else if i == 3 then BoolCode(sh.autosleep)
    else if i == 4 then sh.wakeupRate.Code()
    else if i == 5 then sh.activityMode.Code()
    else if i == 6 then sh.filterSettle.Code()
    else sh.instantOnThresh.Code()
  }

  /** Every single-field setting the shadow records is what its register
      field holds. */
  predicate Consistent(d: Device) {
    forall i :: 0 <= i < |ConfigFields| ==> FieldValue(d.bus, ConfigFields[i]) == ShadowCode(d.shadow, i)
  }

  /** The FIFO settings the shadow records are what FIFO_SAMPLES and
      FIFO_CTL hold. */
  predicate FifoConsistent(d: Device) {
    var lo := Peek(d.bus.regs, FifoSamples);
    var ctl := Peek(d.bus.regs, FifoCtl);
    && StoredDepth(lo, ctl) == d.shadow.fifoSamples
    && StoredMode(ctl) == d.shadow.fifoMode.Code()
    && StoredFormat(ctl) == d.shadow.fifoFormat.Code()
  }

  /** Where a setting's field sits in `ConfigFields`. */
  function IndexOf(s: Setting): (i: nat)
    ensures i < |ConfigFields| && ConfigFields[i] == s.FieldOf()
  {
    match s
    case OpModeSetting(_) => 0
    case OdrSetting(_) => 1
    case BandwidthSetting(_) => 2
    case AutosleepSetting(_) => 3
    case WakeupRateSetting(_) => 4
    case ActivityModeSetting(_) => 5
    case FilterSettleSetting(_) => 6
    case InstantOnSetting(_) => 7
  }

  /** A setter changes exactly its own entry of the shadow's codes. */
  lemma ShadowCodesOfApply(d: Device, s: Setting)
    ensures forall i :: 0 <= i < |ConfigFields| ==> ShadowCode(Apply(d, s).shadow, i) == if i == IndexOf(s) then s.CodeOf() else ShadowCode(d.shadow, i)
  {
    ApplyRecords(d, s);
    ShadowCodesOfRecord(d.shadow, s);
  }

  /** The shadow after recording one setting. */
  function Record(sh: Shadow, s: Setting): Shadow {
    match s
    case OpModeSetting(m) => sh.(opMode := m)
    case OdrSetting(o) => sh.(odr := o)
    case BandwidthSetting(bw) => sh.(bandwidth := bw)
    case AutosleepSetting(e) => sh.(autosleep := e)
    case WakeupRateSetting(w) => sh.(wakeupRate := w)
    case ActivityModeSetting(a) => sh.(activityMode := a)
    case FilterSettleSetting(st) => sh.(filterSettle := st)
    case InstantOnSetting(t) => sh.(instantOnThresh := t)
  }

  lemma ApplyRecords(d: Device, s: Setting)
    ensures Apply(d, s).shadow == Record(d.shadow, s)
  {
  }

  lemma ShadowCodesOfRecord(sh: Shadow, s: Setting)
    ensures forall i :: 0 <= i < |ConfigFields| ==> ShadowCode(Record(sh, s), i) == if i == IndexOf(s) then s.CodeOf() else ShadowCode(sh, i)
  {
  }

  /** A read-modify-write of one field leaves every other field's value. */
  lemma RmwKeepsOtherField(b: Bus, b': Bus, f: Field, g: Field)
    requires Peek(b'.regs, f.reg) & f.mask == Peek(b.regs, f.reg) & f.mask
    requires forall a: nat :: a != f.reg ==> Peek(b'.regs, a) == Peek(b.regs, a)
    requires g.reg == f.reg ==> !f.mask & !g.mask == 0
    ensures FieldValue(b', g) == FieldValue(b, g)
  {
    OtherFieldBitsKept(b, b', f, g);
    FieldValueReadsField(b, b', g);
  }

  lemma OtherFieldBitsKept(b: Bus, b': Bus, f: Field, g: Field)
    requires Peek(b'.regs, f.reg) & f.mask == Peek(b.regs, f.reg) & f.mask
    requires forall a: nat :: a != f.reg ==> Peek(b'.regs, a) == Peek(b.regs, a)
    requires g.reg == f.reg ==> !f.mask & !g.mask == 0
    ensures Peek(b'.regs, g.reg) & !g.mask == Peek(b.regs, g.reg) & !g.mask
  {
    if g.reg == f.reg {
      SameRegisterBitsKept(b, b', f, g);
    }
  }

  lemma SameRegisterBitsKept(b: Bus, b': Bus, f: Field, g: Field)
    requires Peek(b'.regs, f.reg) & f.mask == Peek(b.regs, f.reg) & f.mask
    requires g.reg == f.reg && !f.mask & !g.mask == 0
    ensures Peek(b'.regs, g.reg) & !g.mask == Peek(b.regs, g.reg) & !g.mask
  {
    MaskedBitsKept(Peek(b.regs, g.reg), Peek(b'.regs, g.reg), f.mask, g.mask);
  }

  /** A field's value depends only on the bits its mask clears. */
  lemma FieldValueReadsField(b: Bus, b': Bus, g: Field)
    requires Peek(b'.regs, g.reg) & !g.mask == Peek(b.regs, g.reg) & !g.mask
    ensures FieldValue(b', g) == FieldValue(b, g)
  {
    ExtractReadsField(Peek(b'.regs, g.reg), Peek(b.regs, g.reg), g.mask, g.pos);
  }

  /** Every setter keeps the shadow consistent with the registers. */
  lemma ApplyKeepsConsistent(d: Device, s: Setting)
    requires Consistent(d)
    ensures Consistent(Apply(d, s))
  {
    var r := Apply(d, s);
    SetterIsOneFieldUpdate(d, s);
    ShadowCodesOfApply(d, s);
    OneFieldKeepsConsistent(d, r, IndexOf(s));
  }

  /** A step that rewrites only field `k`, and records in the shadow what
      that field now holds, keeps the shadow consistent. */
  lemma OneFieldKeepsConsistent(d: Device, r: Device, k: nat)
    requires Consistent(d) && k < |ConfigFields|
    requires var f := ConfigFields[k];
      && Peek(r.bus.regs, f.reg) & f.mask == Peek(d.bus.regs, f.reg) & f.mask
      && (forall a: nat :: a != f.reg ==> Peek(r.bus.regs, a) == Peek(d.bus.regs, a))
      && FieldValue(r.bus, f) == ShadowCode(r.shadow, k)
    requires forall i :: 0 <= i < |ConfigFields| && i != k ==> ShadowCode(r.shadow, i) == ShadowCode(d.shadow, i)
    ensures Consistent(r)
  {
    forall i | 0 <= i < |ConfigFields|
      ensures FieldValue(r.bus, ConfigFields[i]) == ShadowCode(r.shadow, i)
    {
      if i != k {
        OtherFieldStaysConsistent(d, r, k, i);
      }
    }
  }

  /** Field `i` keeps its agreement across a rewrite of field `k`. */
  lemma OtherFieldStaysConsistent(d: Device, r: Device, k: nat, i: nat)
    requires k < |ConfigFields| && i < |ConfigFields| && i != k
    requires var f := ConfigFields[k];
      && Peek(r.bus.regs, f.reg) & f.mask == Peek(d.bus.regs, f.reg) & f.mask
      && (forall a: nat :: a != f.reg ==> Peek(r.bus.regs, a) == Peek(d.bus.regs, a))
    requires FieldValue(d.bus, ConfigFields[i]) == ShadowCode(d.shadow, i)
    requires ShadowCode(r.shadow, i) == ShadowCode(d.shadow, i)
    ensures FieldValue(r.bus, ConfigFields[i]) == ShadowCode(r.shadow, i)
  {
    FieldPairIsDisjoint(k, i);
    RmwKeepsOtherField(d.bus, r.bus, ConfigFields[k], ConfigFields[i]);
  }

  lemma FieldPairIsDisjoint(k: nat, i: nat)
    requires k < |ConfigFields| && i < |ConfigFields| && i != k
    ensures ConfigFields[i].reg == ConfigFields[k].reg ==> !ConfigFields[k].mask & !ConfigFields[i].mask == 0
  {
    SharedRegisterFieldsAreDisjoint();
  }

  /** A write that avoids TIMING, MEASURE and POWER_CTL leaves every field. */
  lemma FieldsUnchanged(b: Bus, b': Bus)
    requires forall a: nat :: Timing <= a <= PowerCtl ==> Peek(b'.regs, a) == Peek(b.regs, a)
    ensures forall i :: 0 <= i < |ConfigFields| ==> FieldValue(b', ConfigFields[i]) == FieldValue(b, ConfigFields[i])
  {
    forall i | 0 <= i < |ConfigFields|
      ensures FieldValue(b', ConfigFields[i]) == FieldValue(b, ConfigFields[i])
    {
      assert Timing <= ConfigFields[i].reg <= PowerCtl;
    }
  }

  /** The single-field settings two shadows record agree. */
  predicate SameSettings(sh: Shadow, sh': Shadow) {
    && sh'.opMode == sh.opMode && sh'.odr == sh.odr && sh'.bandwidth == sh.bandwidth
    && sh'.autosleep == sh.autosleep && sh'.wakeupRate == sh.wakeupRate
    && sh'.activityMode == sh.activityMode && sh'.filterSettle == sh.filterSettle
    && sh'.instantOnThresh == sh.instantOnThresh
  }

  /** A step that leaves TIMING, MEASURE, POWER_CTL and the recorded settings
      alone keeps the shadow consistent. */
  lemma UntouchedFieldsKeepConsistent(d: Device, r: Device)
    requires Consistent(d) && SameSettings(d.shadow, r.shadow)
    requires forall a: nat :: Timing <= a <= PowerCtl ==> Peek(r.bus.regs, a) == Peek(d.bus.regs, a)
    ensures Consistent(r)
  {
    FieldsUnchanged(d.bus, r.bus);
    forall i | 0 <= i < |ConfigFields|
      ensures FieldValue(r.bus, ConfigFields[i]) == ShadowCode(r.shadow, i)
    {
      assert ShadowCode(r.shadow, i) == ShadowCode(d.shadow, i);
    }
  }

  /** The timers live outside the configuration registers. */
  lemma TimersKeepConsistent(d: Device, ms: real)
    requires ms >= 0.0 && Consistent(d)
    ensures Consistent(SetActivityTime(d, ms)) && Consistent(SetInactivityTime(d, ms))
  {
    UntouchedFieldsKeepConsistent(d, SetActivityTime(d, ms));
    UntouchedFieldsKeepConsistent(d, SetInactivityTime(d, ms));
  }

  /** A threshold write keeps the shadow consistent when its burst ends
      before TIMING, as every replicated write and every pair written to a
      threshold register does. */
  lemma ThresholdKeepsConsistent(d: Device, thresh: int, referenced: bool, enabled: bool, addr: Reg, multiple: bool)
    requires Consistent(d)
    requires addr + (if multiple then 6 else 2) <= Timing
    ensures Consistent(SetActivityThreshold(d, thresh, referenced, enabled, addr, multiple).dev)
  {
    UntouchedFieldsKeepConsistent(d, SetActivityThreshold(d, thresh, referenced, enabled, addr, multiple).dev);
  }

  /** A pair written to POWER_CTL without the replication check silently
      overwrites the operating mode behind the shadow's back. */
  lemma UncheckedThresholdCanBreakConsistency(d: Device)
    requires Consistent(d) && d.shadow.opMode == FullBwMeasurement
    ensures !Consistent(SetActivityThreshold(d, 0, false, false, PowerCtl, false).dev)
  {
    var r := SetActivityThreshold(d, 0, false, false, PowerCtl, false).dev;
    var p := Pack(ThresholdCode(0), false, false);
    assert Peek(r.bus.regs, PowerCtl + 0) == p.high;
    assert p.high as nat * 8 + (p.low >> 5) as nat == 0;
    ZeroHighByte(p.high);
    assert FieldValue(r.bus, ConfigFields[0]) == 0;
  }

  lemma ZeroHighByte(b: bv8)
    requires b as nat == 0
    ensures Extract(b, PwrCtrlOpmodeMask, 0) == 0
  {
  }

  /** Configuring the FIFO keeps the single-field settings consistent. */
  lemma ConfigureFifoKeepsConsistent(d: Device, samples: int, mode: FifoMode, format: FifoFormat)
    requires Consistent(d)
    ensures Consistent(ConfigureFifo(d, samples, mode, format))
  {
    var r := ConfigureFifo(d, samples, mode, format);
    MeasuringKeepsConsistent(d, r);
  }

  /** A step that ends in full-bandwidth measurement, keeps the other
      POWER_CTL bits and changes no other configuration register keeps the
      shadow consistent when the shadow records the measurement mode. */
  lemma MeasuringKeepsConsistent(d: Device, r: Device)
    requires Consistent(d)
    requires FieldValue(r.bus, OpModeField) == FullBwMeasurement.Code()
    requires Peek(r.bus.regs, PowerCtl) & OpModeField.mask == Peek(d.bus.regs, PowerCtl) & OpModeField.mask
    requires forall a: nat :: a != PowerCtl && a != FifoSamples && a != FifoCtl ==> Peek(r.bus.regs, a) == Peek(d.bus.regs, a)
    requires SameSettings(d.shadow.(opMode := FullBwMeasurement), r.shadow)
    ensures Consistent(r)
  {
    SharedRegisterFieldsAreDisjoint();
    forall i | 0 <= i < |ConfigFields|
      ensures FieldValue(r.bus, ConfigFields[i]) == ShadowCode(r.shadow, i)
    {
      if i > 0 {
        OtherFieldAfterFifo(d.bus, r.bus, ConfigFields[i]);
        assert ShadowCode(r.shadow, i) == ShadowCode(d.shadow, i);
      }
    }
  }

  /** Configuring the FIFO makes the FIFO settings consistent, whatever the
      registers held before. */
  lemma ConfigureFifoMakesFifoConsistent(d: Device, samples: int, mode: FifoMode, format: FifoFormat)
    ensures FifoConsistent(ConfigureFifo(d, samples, mode, format))
  {
  }

  lemma OtherFieldAfterFifo(b: Bus, b': Bus, g: Field)
    requires Peek(b'.regs, PowerCtl) & OpModeField.mask == Peek(b.regs, PowerCtl) & OpModeField.mask
    requires forall a: nat :: a != PowerCtl && a != FifoSamples && a != FifoCtl ==> Peek(b'.regs, a) == Peek(b.regs, a)
    requires g.reg != FifoSamples && g.reg != FifoCtl
    requires g.reg == PowerCtl ==> !OpModeField.mask & !g.mask == 0
    ensures FieldValue(b', g) == FieldValue(b, g)
  {
    if g.reg == PowerCtl {
      SameRegisterBitsKept(b, b', OpModeField, g);
    } else {
      assert Peek(b'.regs, g.reg) == Peek(b.regs, g.reg);
    }
    FieldValueReadsField(b, b', g);
  }

  /** TIMING, MEASURE and POWER_CTL read zero, as the constructor's comment
      says the registers start. */
  predicate SettingsRegistersZero(b: Bus) {
    Peek(b.regs, Timing) == 0 && Peek(b.regs, Measure) == 0 && Peek(b.regs, PowerCtl) == 0
  }

  /** A zero field reads as code 0. */
  lemma ZeroRegisterReadsZero(b: Bus, g: Field)
    requires Peek(b.regs, g.reg) == 0
    ensures FieldValue(b, g) == 0
  {
  }

  /** On zeroed settings registers, construction agrees with the registers
      in every field but the operating mode: the shadow records full
      bandwidth measurement while POWER_CTL's mode field reads standby. So
      agreement has no base case at construction. */
  lemma InitAgreesExceptOpMode(b: Bus)
    requires SettingsRegistersZero(b)
    ensures forall i :: 1 <= i < |ConfigFields| ==> FieldValue(Init(b).bus, ConfigFields[i]) == ShadowCode(Init(b).shadow, i)
    ensures FieldValue(Init(b).bus, OpModeField) == StandBy.Code()
    ensures ShadowCode(Init(b).shadow, 0) == FullBwMeasurement.Code()
    ensures !Consistent(Init(b))
  {
    var d := Init(b);
    forall i | 0 <= i < |ConfigFields|
      ensures FieldValue(d.bus, ConfigFields[i]) == 0
    {
      ZeroRegisterReadsZero(b, ConfigFields[i]);
    }
    assert FieldValue(d.bus, ConfigFields[0]) != ShadowCode(d.shadow, 0);
  }

  /** With FIFO_SAMPLES at its power-on 0x80 and FIFO_CTL at zero, the FIFO
      mode and format agree with construction, but the registers hold a
      depth of 129 while the shadow records the raw 0x80. */
  lemma InitFifoDepthDisagrees(b: Bus)
    requires Peek(b.regs, FifoSamples) == 0x80 && Peek(b.regs, FifoCtl) == 0
    ensures StoredMode(0) == Init(b).shadow.fifoMode.Code() && StoredFormat(0) == Init(b).shadow.fifoFormat.Code()
    ensures StoredDepth(0x80, 0) == 129 && Init(b).shadow.fifoSamples == 128
    ensures !FifoConsistent(Init(b))
  {
  }
}

=== FILE: samples.dfy ===
/** Acceleration samples and the FIFO fill level (adxl372.py `Sample`,
    `process_sample`, `get_accel_data`, `get_highest_peak_accel_data`,
    `get_fifo_entries`). An axis is a 12-bit two's-complement value held
    left-aligned in a high/low register pair; the low nibble of the low byte
    carries no data. */
module Samples {
  import opened Options
  import opened Defs
  import opened Codec
  import opened Spi
  import opened Driver

  datatype Sample = Sample(x: int, y: int, z: int)

  /** The 12-bit field of a register pair: `((hi << 8) | lo) >> 4`. */
  function Raw12(hi: bv8, lo: bv8): (u: nat)
    ensures u < 4096
    ensures u == hi as nat * 16 + lo as nat / 16
  {
    (hi as nat * 256 + lo as nat) / 16
  }

  /** One axis: the 12-bit field read as two's complement. */
  function Axis(hi: bv8, lo: bv8): (v: int)
    ensures -2048 <= v < 2048
    ensures (v - Raw12(hi, lo)) % 4096 == 0
    ensures v < 0 <==> hi as nat >= 128
  {
    var u := Raw12(hi, lo);
    if u >= 2048 then u - 4096 else u
  }

  /** The register pair the device uses for an axis value (low nibble zero). */
  function EncodeAxis(v: int): (p: (bv8, bv8))
    requires -2048 <= v < 2048
    ensures p.1 as nat % 16 == 0
  {
    var u := v % 4096;
    NibbleArith(u);
    (ToByte(u / 16), ToByte(u % 16 * 16))
  }

  lemma NibbleArith(u: nat)
    requires u < 4096
    ensures u / 16 < 256 && u % 16 * 16 < 256 && u % 16 * 16 % 16 == 0
  {
  }

  /** Decoding an encoded value gives it back. */
  lemma AxisOfEncode(v: int)
    requires -2048 <= v < 2048
    ensures Axis(EncodeAxis(v).0, EncodeAxis(v).1) == v
  {
    var p := EncodeAxis(v);
    UnwrapArith(v, p.0 as nat, p.1 as nat);
  }

  lemma UnwrapArith(v: int, h: nat, l: nat)
    requires -2048 <= v < 2048
    requires h == v % 4096 / 16 && l == v % 4096 % 16 * 16
    ensures var u := h * 16 + l / 16; (if u >= 2048 then u - 4096 else u) == v
  {
  }

  /** Encoding a decoded value gives the pair back, save the ignored nibble. */
  lemma EncodeOfAxis(hi: bv8, lo: bv8)
    ensures EncodeAxis(Axis(hi, lo)).0 == hi
    ensures EncodeAxis(Axis(hi, lo)).1 as nat == lo as nat / 16 * 16
  {
    var v := Axis(hi, lo);
    WrapArith(hi as nat, lo as nat, v);
    var p := EncodeAxis(v);
    SameByte(p.0, hi);
  }

  lemma WrapArith(h: nat, l: nat, v: int)
    requires h < 256 && l < 256
    requires v == (var u := h * 16 + l / 16; if u >= 2048 then u - 4096 else u)
    ensures v % 4096 / 16 == h && v % 4096 % 16 * 16 == l / 16 * 16
  {
    var u := h * 16 + l / 16;
    assert v % 4096 == u;
  }

  /** The low nibble of the low byte never affects the value. */
  lemma LowNibbleIgnored(hi: bv8, lo1: bv8, lo2: bv8)
    requires lo1 as nat / 16 == lo2 as nat / 16
    ensures Axis(hi, lo1) == Axis(hi, lo2)
  {
  }

  /** `process_sample`: X, Y and Z from six consecutive bytes, each the
      12-bit two's-complement number in a high byte and the high nibble of
      the low byte that follows it. Range and congruence together fix each
      axis uniquely; bytes past the sixth are not read. */
  function ProcessSample(data: seq<bv8>): (s: Sample)
    requires |data| >= 6
    ensures -2048 <= s.x < 2048 && -2048 <= s.y < 2048 && -2048 <= s.z < 2048
    ensures (s.x - Raw12(data[0], data[1])) % 4096 == 0
    ensures (s.y - Raw12(data[2], data[3])) % 4096 == 0
    ensures (s.z - Raw12(data[4], data[5])) % 4096 == 0
    ensures s.x < 0 <==> data[0] as nat >= 128
    ensures s.y < 0 <==> data[2] as nat >= 128
    ensures s.z < 0 <==> data[4] as nat >= 128
  {
    var x, y, z := Axis(data[0], data[1]), Axis(data[2], data[3]), Axis(data[4], data[5]);
    Sample(x, y, z)
  }

  /** The six bytes the device holds for a sample. */
  function EncodeSample(s: Sample): (data: seq<bv8>)
    requires -2048 <= s.x < 2048 && -2048 <= s.y < 2048 && -2048 <= s.z < 2048
    ensures |data| == 6
  {
    var x := EncodeAxis(s.x);
    var y := EncodeAxis(s.y);
    var z := EncodeAxis(s.z);
    [x.0, x.1, y.0, y.1, z.0, z.1]
  }

  /** Every sample in range survives the register encoding. */
  lemma ProcessEncodedSample(s: Sample)
    requires -2048 <= s.x < 2048 && -2048 <= s.y < 2048 && -2048 <= s.z < 2048
    ensures ProcessSample(EncodeSample(s)) == s
  {
    AxisOfEncode(s.x);
    AxisOfEncode(s.y);
    AxisOfEncode(s.z);
  }

  /** Full-scale positive, full-scale negative and one least-significant step. */
  lemma ProcessSampleExample()
    ensures ProcessSample([0x7F, 0xF0, 0x80, 0x00, 0x00, 0x10]) == Sample(2047, -2048, 1)
  {
  }

  /** A sample read as a six-byte burst from `reg`. */
  function ReadSample(d: Device, reg: Reg): (r: Reading<Sample>)
    ensures r.value == ProcessSample(Burst(d.bus.regs, reg, 6))
    ensures r.dev.shadow == d.shadow && r.dev.bus.regs == d.bus.regs
    ensures r.dev.bus.trace == d.bus.trace + [ReadFrame(reg, 6)]
  {
    var (bus', data) := Read(d.bus, reg, 6);
    Reading(Device(d.shadow, bus'), ProcessSample(data))
  }

  /** `get_highest_peak_accel_data`: the peak registers from X_MAXPEAK_H on. */
  function GetHighestPeakAccelData(d: Device): (r: Reading<Sample>)
    ensures r.value == ProcessSample(Burst(d.bus.regs, XMaxPeakH, 6))
    ensures r.value.x == Axis(Peek(d.bus.regs, XMaxPeakH), Peek(d.bus.regs, XMaxPeakH + 1))
    ensures r.value.y == Axis(Peek(d.bus.regs, XMaxPeakH + 2), Peek(d.bus.regs, XMaxPeakH + 3))
    ensures r.value.z == Axis(Peek(d.bus.regs, XMaxPeakH + 4), Peek(d.bus.regs, XMaxPeakH + 5))
    ensures r.dev.shadow == d.shadow && r.dev.bus.regs == d.bus.regs
    ensures r.dev.bus.trace == d.bus.trace + [ReadFrame(XMaxPeakH, 6)]
  {
    ReadSample(d, XMaxPeakH)
  }

  /** One pass of `get_accel_data`'s loop: read STATUS; when DATA_RDY is set,
      read the data registers from X_DATA_H on. The driver repeats the pass
      until it yields a sample. */
  function AccelDataStep(d: Device): (r: Reading<Option<Sample>>)
    ensures r.value.Some? <==> Peek(d.bus.regs, Status1) & DataRdy != 0
    ensures r.value.Some? ==>
      && r.value.value == ProcessSample(Burst(d.bus.regs, XDataH, 6))
      && r.value.value.x == Axis(Peek(d.bus.regs, XDataH), Peek(d.bus.regs, XDataH + 1))
      && r.value.value.y == Axis(Peek(d.bus.regs, XDataH + 2), Peek(d.bus.regs, XDataH + 3))
      && r.value.value.z == Axis(Peek(d.bus.regs, XDataH + 4), Peek(d.bus.regs, XDataH + 5))
      && r.dev.bus.trace == d.bus.trace + [ReadFrame(Status1, 1), ReadFrame(XDataH, 6)]
    ensures r.value.None? ==> r.dev.bus.trace == d.bus.trace + [ReadFrame(Status1, 1)]
    ensures r.dev.shadow == d.shadow && r.dev.bus.regs == d.bus.regs
  {
    var status := GetStatus(d);
    if status.value & DataRdy != 0 then
      var s := ReadSample(status.dev, XDataH);
      Reading(s.dev, Some(s.value))
    else
      Reading(status.dev, None)
  }

  /** The FIFO fill level: the two low bits of FIFO_ENTRIES_2 above the
      eight bits of FIFO_ENTRIES_1. */
  function EntriesOf(b2: bv8, b1: bv8): (n: nat)
    ensures n < 1024
  {
    (b2 & 3) as nat * 256 + b1 as nat
  }

  /** The register pair of a fill level (upper six bits clear). */
  function EncodeEntries(n: nat): (p: (bv8, bv8))
    requires n < 1024
    ensures p.0 as nat < 4
  {
    (ToByte(n / 256), ToByte(n % 256))
  }

  lemma EntriesOfEncode(n: nat)
    requires n < 1024
    ensures EntriesOf(EncodeEntries(n).0, EncodeEntries(n).1) == n
  {
    var p := EncodeEntries(n);
    LowBitsOfSmall(p.0);
  }

  lemma EncodeOfEntries(b2: bv8, b1: bv8)
    ensures EncodeEntries(EntriesOf(b2, b1)) == (b2 & 3, b1)
  {
    var n := EntriesOf(b2, b1);
    var p := EncodeEntries(n);
    TwoLowBits(b2);
    SplitArith((b2 & 3) as nat, b1 as nat, n);
    SameByte(p.0, b2 & 3);
    SameByte(p.1, b1);
  }

  lemma SplitArith(h: nat, l: nat, n: nat)
    requires h < 4 && l < 256 && n == h * 256 + l
    ensures n / 256 == h && n % 256 == l
  {
  }

  lemma TwoLowBits(b: bv8)
    ensures (b & 3) as nat < 4
  {
  }

  /** The upper six bits of FIFO_ENTRIES_2 never affect the level. */
  lemma EntriesIgnoreUpperBits(b2: bv8, c2: bv8, b1: bv8)
    requires b2 & 3 == c2 & 3
    ensures EntriesOf(b2, b1) == EntriesOf(c2, b1)
  {
  }

  lemma LowBitsOfSmall(b: bv8)
    requires b as nat < 4
    ensures b & 3 == b
  {
  }

  /** `get_fifo_entries`: a two-byte burst from FIFO_ENTRIES_2. */
  function GetFifoEntries(d: Device): (r: Reading<nat>)
    ensures r.value == EntriesOf(Peek(d.bus.regs, FifoEntries2), Peek(d.bus.regs, FifoEntries1))
    ensures r.dev.shadow == d.shadow && r.dev.bus.regs == d.bus.regs
    ensures r.dev.bus.trace == d.bus.trace + [ReadFrame(FifoEntries2, 2)]
  {
    var (bus', data) := Read(d.bus, FifoEntries2, 2);
    Reading(Device(d.shadow, bus'), EntriesOf(data[0], data[1]))
  }

  /** 0x02 and 0x34 give 2 * 256 + 52 entries; the upper bits are ignored. */
  lemma FifoEntriesExample()
    ensures EntriesOf(0x02, 0x34) == 564 && EntriesOf(0xFE, 0x34) == 564
  {
  }
}

=== FILE: spi.dfy ===
/** A small optional-value type used by decoders and name lookups. */
module Options {
  datatype Option<T> = None | Some(value: T)
}

/** Bus framing (adxl372.py `read` / `write`) over an abstract full-duplex
    exchange. The device side of the exchange is a plain register file with
    address auto-increment; every frame the driver sends is appended to a
    trace, so the order and content of the driver's transfers can be stated. */
module Spi {
  import opened Options
  import opened Defs
  import opened Codec

  type Frame = seq<bv8>

  /** The device's registers (a missing address reads as 0) and every frame
      sent so far, oldest first. */
  datatype Bus = Bus(regs: map<nat, bv8>, trace: seq<Frame>)

  /** What the device understands a frame to ask for. */
  datatype Access = Access(reg: nat, read: bool, data: seq<bv8>)

  /** The first byte of every transfer: the address shifted up by one, with
      the direction bit set for a read. */
  function Header(reg: Reg, read: bool): (h: bv8)
    ensures (h >> 1) as nat == reg
    ensures (h & SpiRnw == SpiRnw) == read
  {
    var h := ((reg as bv8) << 1) | (if read then SpiRnw else 0);
    HeaderKeepsAddress(reg, read);
    ByteRoundTrip(h >> 1, reg);
    h
  }

  lemma HeaderKeepsAddress(reg: Reg, read: bool)
    ensures (((reg as bv8) << 1) | (if read then SpiRnw else 0)) >> 1 == reg as bv8
  {
  }

  function Zeros(n: nat): (z: seq<bv8>)
    ensures |z| == n && forall i :: 0 <= i < n ==> z[i] == 0
  {
    seq(n, _ => 0)
  }

  /** The frame of a read of `n` bytes: the header, then `n` don't-care bytes
      during which the device answers. */
  function ReadFrame(reg: Reg, n: nat): (f: Frame)
    ensures |f| == n + 1
    ensures (f[0] >> 1) as nat == reg && f[0] & SpiRnw == SpiRnw
    ensures forall i :: 1 <= i <= n ==> f[i] == 0
  {
    [Header(reg, true)] + Zeros(n)
  }

  /** The frame of a write: the header, then the payload. */
  function WriteFrame(reg: Reg, msg: seq<bv8>): (f: Frame)
    ensures |f| == |msg| + 1
    ensures (f[0] >> 1) as nat == reg && f[0] & SpiRnw != SpiRnw
    ensures f[1..] == msg
  {
    [Header(reg, false)] + msg
  }

  /** How the device reads a frame. */
  function Decode(f: Frame): Option<Access> {
    if |f| == 0 then None
    else Some(Access((f[0] >> 1) as nat, f[0] & SpiRnw == SpiRnw, f[1..]))
  }

  /** A read frame is understood as a read of the requested register. */
  lemma DecodeReadFrame(reg: Reg, n: nat)
    ensures Decode(ReadFrame(reg, n)) == Some(Access(reg, true, Zeros(n)))
  {
    assert ReadFrame(reg, n)[1..] == Zeros(n);
  }

  /** A write frame is understood as a write of its payload to the register. */
  lemma DecodeWriteFrame(reg: Reg, msg: seq<bv8>)
    ensures Decode(WriteFrame(reg, msg)) == Some(Access(reg, false, msg))
  {
    assert WriteFrame(reg, msg)[1..] == msg;
  }

  /** Distinct transfers have distinct frames. */
  lemma FramesAreUnambiguous(r1: Reg, n: nat, r2: Reg, msg: seq<bv8>)
    ensures ReadFrame(r1, n) != WriteFrame(r2, msg)
    ensures forall r3: Reg :: r3 != r2 ==> WriteFrame(r3, msg) != WriteFrame(r2, msg)
  {
    assert ReadFrame(r1, n)[0] != WriteFrame(r2, msg)[0];
    forall r3: Reg | r3 != r2 ensures WriteFrame(r3, msg) != WriteFrame(r2, msg) {
      assert WriteFrame(r3, msg)[0] != WriteFrame(r2, msg)[0];
    }
  }

  function Peek(regs: map<nat, bv8>, a: nat): bv8 {
    if a in regs then regs[a] else 0
  }

  /** `n` consecutive registers starting at `a`, as a burst read returns them. */
  function Burst(regs: map<nat, bv8>, a: nat, n: nat): (s: seq<bv8>)
    ensures |s| == n
    ensures forall i :: 0 <= i < n ==> s[i] == Peek(regs, a + i)
    decreases n
  {
    if n == 0 then [] else [Peek(regs, a)] + Burst(regs, a + 1, n - 1)
  }

  /** The register file after a burst write of `msg` starting at `a`. */
  function Store(regs: map<nat, bv8>, a: nat, msg: seq<bv8>): (r: map<nat, bv8>)
    ensures forall b: nat :: Peek(r, b) == if a <= b < a + |msg| then msg[b - a] else Peek(regs, b)
    decreases |msg|
  {
    if msg == [] then regs else Store(regs[a := msg[0]], a + 1, msg[1..])
  }

  /** Reading back what a burst wrote returns exactly the payload. */
  lemma BurstAfterStore(regs: map<nat, bv8>, a: nat, msg: seq<bv8>)
    ensures Burst(Store(regs, a, msg), a, |msg|) == msg
  {
  }

  /** One full-duplex exchange (`xfer`): the device decodes the frame,
      answers a read from its registers and stores a write. The answer is as
      long as the frame; an empty frame does nothing but enter the trace. */
  function Exchange(bus: Bus, frame: Frame): (r: (Bus, Frame))
    ensures r.0.trace == bus.trace + [frame]
    ensures |r.1| == |frame|
    ensures |frame| > 0 && frame[0] & SpiRnw == SpiRnw ==>
      r.0.regs == bus.regs && r.1[1..] == Burst(bus.regs, (frame[0] >> 1) as nat, |frame| - 1)
  {
    var trace := bus.trace + [frame];
    match Decode(frame)
    case None => (Bus(bus.regs, trace), [])
    case Some(access) =>
      if access.read then
        var answer := [0] + Burst(bus.regs, access.reg, |access.data|);
        assert answer[1..] == Burst(bus.regs, access.reg, |access.data|);
        (Bus(bus.regs, trace), answer)
      else
        (Bus(Store(bus.regs, access.reg, access.data), trace), Zeros(|frame|))
  }

  /** `read`: the bytes of the answer after the header byte. */
  function Read(bus: Bus, reg: Reg, n: nat): (r: (Bus, seq<bv8>))
    ensures r.1 == Burst(bus.regs, reg, n)
    ensures r.0 == Bus(bus.regs, bus.trace + [ReadFrame(reg, n)])
  {
    DecodeReadFrame(reg, n);
    var (bus', answer) := Exchange(bus, ReadFrame(reg, n));
    (bus', answer[1..])
  }

  /** `read` of one byte, which the driver returns as a bare integer. */
  function ReadByte(bus: Bus, reg: Reg): (r: (Bus, bv8))
    ensures r.1 == Peek(bus.regs, reg)
    ensures r.0 == Bus(bus.regs, bus.trace + [ReadFrame(reg, 1)])
  {
    var (bus', data) := Read(bus, reg, 1);
    (bus', data[0])
  }

  /** `write`: the payload lands in consecutive registers from `reg` on. */
  function Write(bus: Bus, reg: Reg, msg: seq<bv8>): (r: Bus)
    ensures r.trace == bus.trace + [WriteFrame(reg, msg)]
    ensures forall b: nat :: Peek(r.regs, b) == if reg <= b < reg + |msg| then msg[b - reg] else Peek(bus.regs, b)
  {
    DecodeWriteFrame(reg, msg);
    Exchange(bus, WriteFrame(reg, msg)).0
  }
}

=== FILE: threshold.dfy ===
/** Activity and inactivity thresholds (adxl372.py `set_activity_threshold`):
    milli-g to an 11-bit code, the code to a high/low byte pair carrying the
    referenced and enabled flags, and the one burst write of the pair or of
    three copies of it. */
module Threshold {
  import opened Defs
  import opened Codec
  import opened Spi
  import opened Enums
  import opened Driver

  /** The 11-bit code of a threshold in milli-g, at 100 mg per code:
      `thresh // 100 & 0x7FF`. For a positive divisor Dafny's `/` is floor
      division like Python's `//`, and `& 0x7FF` leaves the non-negative
      residue modulo 2048 of any integer, negative ones included. */
  function ThresholdCode(thresh: int): (c: nat)
    ensures c < 2048
    ensures (thresh / 100 - c) % 2048 == 0
    ensures 0 <= thresh < 204800 ==> 100 * c <= thresh < 100 * c + 100
  {
    (thresh / 100) % 2048
  }

  datatype ThresholdBytes = ThresholdBytes(high: bv8, low: bv8)

  /** The register pair of a code: `high = code >> 3`; `low` carries the three
      low bits of the code in bits 7..5 (all that `(code << 5) & 0xFF` keeps),
      the referenced flag in bit 1 and the enabled flag in bit 0. */
  function Pack(code: nat, referenced: bool, enabled: bool): (p: ThresholdBytes)
    requires code < 2048
    ensures p.high as nat * 8 + (p.low >> 5) as nat == code
    ensures p.low & 0x1C == 0
    ensures (p.low & 2 == 2) == referenced && (p.low & 1 == 1) == enabled
  {
    var high := ToByte(code / 8);
    var top := ToByte(code % 8);
    var low := (top << 5) | (ToByte(BoolCode(referenced)) << 1) | ToByte(BoolCode(enabled));
    PackedLowByte(top, referenced, enabled);
    ThresholdBytes(high, low)
  }

  lemma PackedLowByte(top: bv8, referenced: bool, enabled: bool)
    requires top < 8
    ensures var low := (top << 5) | (ToByte(BoolCode(referenced)) << 1) | ToByte(BoolCode(enabled));
      && low >> 5 == top
      && low & 0x1C == 0
      && (low & 2 == 2) == referenced && (low & 1 == 1) == enabled
  {
    var r := ToByte(BoolCode(referenced));
    var e := ToByte(BoolCode(enabled));
    assert r < 2 && e < 2;
  }

  /** What the device makes of a register pair: the code and the two flags. */
  datatype ThresholdSetting = ThresholdSetting(code: nat, referenced: bool, enabled: bool)

  function Unpack(high: bv8, low: bv8): ThresholdSetting {
    ThresholdSetting(high as nat * 8 + (low >> 5) as nat, low & 2 == 2, low & 1 == 1)
  }

  /** Packing loses nothing: the pair decodes to the code and flags. */
  lemma UnpackPack(code: nat, referenced: bool, enabled: bool)
    requires code < 2048
    ensures var p := Pack(code, referenced, enabled);
      Unpack(p.high, p.low) == ThresholdSetting(code, referenced, enabled)
  {
  }

  /** Every pair whose bits 4..2 are clear is the packing of what it decodes to. */
  lemma PackUnpack(high: bv8, low: bv8)
    requires low & 0x1C == 0
    ensures Unpack(high, low).code < 2048
    ensures var u := Unpack(high, low);
      Pack(u.code, u.referenced, u.enabled) == ThresholdBytes(high, low)
  {
    var u := Unpack(high, low);
    TopBitsBelowEight(low);
    assert u.code / 8 == high as nat && u.code % 8 == (low >> 5) as nat;
    var p := Pack(u.code, u.referenced, u.enabled);
    TopBitsBelowEight(p.low);
    assert p.high as nat == high as nat;
    assert (p.low >> 5) as nat == (low >> 5) as nat;
    SameLowByte(p.low, low, u.referenced, u.enabled);
  }

  lemma TopBitsBelowEight(b: bv8)
    ensures (b >> 5) as nat < 8
  {
  }

  lemma SameLowByte(x: bv8, y: bv8, referenced: bool, enabled: bool)
    requires x & 0x1C == 0 && y & 0x1C == 0
    requires (x >> 5) as nat == (y >> 5) as nat
    requires (x & 2 == 2) == referenced && (y & 2 == 2) == referenced
    requires (x & 1 == 1) == enabled && (y & 1 == 1) == enabled
    ensures x == y
  {
  }

  /** The bytes one `set_activity_threshold` call writes. */
  function Payload(p: ThresholdBytes, multiple: bool): (data: seq<bv8>)
    ensures |data| == (if multiple then 6 else 2)
    ensures forall k :: 0 <= k < |data| ==> data[k] == (if k % 2 == 0 then p.high else p.low)
  {
    var pair := [p.high, p.low];
    if multiple then pair + pair + pair else pair
  }

  /** `set_activity_threshold`. With `multiple`, a start address outside the
      three X high-byte registers raises before any transfer; without it, the
      pair goes to `addr` unchecked. The shadow has no threshold field. */
  function SetActivityThreshold(d: Device, thresh: int, referenced: bool, enabled: bool, addr: Reg, multiple: bool := true): (r: Outcome)
    ensures r.Raised? <==> multiple && addr !in XMsb
    ensures r.Raised? ==> r.dev == d && r.error == ThresholdAddressError(addr)
    ensures r.dev.shadow == d.shadow
    ensures r.Ok? ==>
      var n := if multiple then 6 else 2;
      var p := Pack(ThresholdCode(thresh), referenced, enabled);
      && r.dev.bus.trace == d.bus.trace + [WriteFrame(addr, Burst(r.dev.bus.regs, addr, n))]
      && (forall k :: 0 <= k < n ==> Peek(r.dev.bus.regs, addr + k) == (if k % 2 == 0 then p.high else p.low))
      && (forall a: nat :: !(addr <= a < addr + n) ==> Peek(r.dev.bus.regs, a) == Peek(d.bus.regs, a))
  {
    var data := Payload(Pack(ThresholdCode(thresh), referenced, enabled), multiple);
    if multiple && addr !in XMsb then
      Raised(ThresholdAddressError(addr), d)
    else
      var bus := Write(d.bus, addr, data);
      assert Burst(bus.regs, addr, |data|) == data;
      Ok(Device(d.shadow, bus))
  }

  /** A replicated write from an X high byte fills exactly that threshold
      group, X, Y and Z alike, and leaves the timers alone. */
  lemma ReplicatedThresholdFillsGroup(d: Device, thresh: int, referenced: bool, enabled: bool, addr: Reg)
    requires addr in XMsb
    ensures var r := SetActivityThreshold(d, thresh, referenced, enabled, addr, true);
      var p := Pack(ThresholdCode(thresh), referenced, enabled);
      var g := ThresholdGroup(addr);
      && r.Ok?
      && (forall k :: 0 <= k < 3 ==> Peek(r.dev.bus.regs, g[2 * k]) == p.high && Peek(r.dev.bus.regs, g[2 * k + 1]) == p.low)
      && Peek(r.dev.bus.regs, TimeAct) == Peek(d.bus.regs, TimeAct)
      && Peek(r.dev.bus.regs, TimeInactH) == Peek(d.bus.regs, TimeInactH)
      && Peek(r.dev.bus.regs, TimeInactL) == Peek(d.bus.regs, TimeInactL)
  {
    var r := SetActivityThreshold(d, thresh, referenced, enabled, addr, true);
    var p := Pack(ThresholdCode(thresh), referenced, enabled);
    GroupHolds(r.dev.bus.regs, d.bus.regs, addr, p.high, p.low);
  }

  lemma GroupHolds(regs: map<nat, bv8>, prev: map<nat, bv8>, addr: Reg, high: bv8, low: bv8)
    requires addr in XMsb
    requires forall k :: 0 <= k < 6 ==> Peek(regs, addr + k) == (if k % 2 == 0 then high else low)
    requires forall a: nat :: !(addr <= a < addr + 6) ==> Peek(regs, a) == Peek(prev, a)
    ensures var g := ThresholdGroup(addr);
      forall k :: 0 <= k < 3 ==> Peek(regs, g[2 * k]) == high && Peek(regs, g[2 * k + 1]) == low
    ensures Peek(regs, TimeAct) == Peek(prev, TimeAct)
    ensures Peek(regs, TimeInactH) == Peek(prev, TimeInactH) && Peek(regs, TimeInactL) == Peek(prev, TimeInactL)
  {
    ThresholdGroupsAreConsecutive(addr);
    var g := ThresholdGroup(addr);
    forall k | 0 <= k < 3
      ensures Peek(regs, g[2 * k]) == high && Peek(regs, g[2 * k + 1]) == low
    {
      assert g[2 * k] == addr + 2 * k && g[2 * k + 1] == addr + (2 * k + 1);
      assert (2 * k) % 2 == 0 && (2 * k + 1) % 2 == 1;
    }
    assert TimeAct == g[0] + 6 || TimeAct < g[0];
  }

  /** 100 mg, referenced and enabled, packs to [0x00, 0x23]. */
  lemma ThresholdExample()
    ensures Pack(ThresholdCode(100), true, true) == ThresholdBytes(0x00, 0x23)
  {
    var p := Pack(ThresholdCode(100), true, true);
    assert p.high as nat * 8 + (p.low >> 5) as nat == 1;
    assert p.high as nat == 0 && (p.low >> 5) == 1;
  }
}

=== FILE: timers.dfy ===
/** The activity and inactivity timers (adxl372.py `set_activity_time`,
    `set_inactivity_time`): a duration in milliseconds becomes a count of
    timer periods, rounded half up and saturated at the register's width.
    Durations are exact non-negative reals; the period depends on the output
    data rate the driver believes it set. */
module Timers {
  import opened Defs
  import opened Codec
  import opened Spi
  import opened Enums
  import opened Driver

  /** Period of the activity timer in ms: 3.3 at 6400 Hz, 6.6 otherwise. */
  function ActivityScale(odr: Odr): (s: real)
    ensures s > 0.0
    ensures s == 3.3 <==> odr == Odr6400Hz
    ensures odr != Odr6400Hz ==> s == 2.0 * 3.3
  {
    if odr == Odr6400Hz then 3.3 else 6.6
  }

  /** Period of the inactivity timer in ms: 13 at 6400 Hz, 26 otherwise. */
  function InactivityScale(odr: Odr): (s: real)
    ensures s > 0.0
    ensures s == 13.0 <==> odr == Odr6400Hz
    ensures odr != Odr6400Hz ==> s == 2.0 * 13.0
  {
    if odr == Odr6400Hz then 13.0 else 26.0
  }

  /** `int(x + .5)` for a non-negative `x`: the nearest integer, halves
      rounding up. */
  function RoundHalfUp(x: real): (n: nat)
    requires x >= 0.0
    ensures x - 0.5 < n as real <= x + 0.5
  {
    (x + 0.5).Floor
  }

  /** The rounded count is within half a unit of `x`, and it is the only
      integer above `x - 0.5` and at most `x + 0.5`: an exact half goes up. */
  lemma RoundHalfUpIsNearest(x: real, m: int)
    requires x >= 0.0
    ensures x - 0.5 < RoundHalfUp(x) as real <= x + 0.5
    ensures x - 0.5 < m as real <= x + 0.5 ==> m == RoundHalfUp(x)
  {
    var n := RoundHalfUp(x);
    assert n as real <= x + 0.5 < n as real + 1.0;
  }

  /** Rounding never decreases with its argument. */
  lemma RoundHalfUpIsMonotone(x: real, y: real)
    requires 0.0 <= x <= y
    ensures RoundHalfUp(x) <= RoundHalfUp(y)
  {
  }

  /** The value written to TIME_ACT. */
  function ActivityPeriods(ms: real, odr: Odr): (n: nat)
    requires ms >= 0.0
    ensures n <= 0xFF
    ensures n < 0xFF ==> ms - ActivityScale(odr) / 2.0 < n as real * ActivityScale(odr) <= ms + ActivityScale(odr) / 2.0
    ensures n == 0xFF <==> ms + ActivityScale(odr) / 2.0 >= 255.0 * ActivityScale(odr)
  {
    var w := RoundHalfUp(ms / ActivityScale(odr));
    RoundHalfUpIsNearest(ms / ActivityScale(odr), w);
    ScaledBounds(ms, ActivityScale(odr), w);
    if w > 0xFF then 0xFF else w
  }

  /** The 16-bit value split over TIME_INACT_H and TIME_INACT_L. */
  function InactivityPeriods(ms: real, odr: Odr): (n: nat)
    requires ms >= 0.0
    ensures n <= 0xFFFF
    ensures n < 0xFFFF ==> ms - InactivityScale(odr) / 2.0 < n as real * InactivityScale(odr) <= ms + InactivityScale(odr) / 2.0
    ensures n == 0xFFFF <==> ms + InactivityScale(odr) / 2.0 >= 65535.0 * InactivityScale(odr)
  {
    var w := RoundHalfUp(ms / InactivityScale(odr));
    RoundHalfUpIsNearest(ms / InactivityScale(odr), w);
    ScaledBounds(ms, InactivityScale(odr), w);
    if w > 0xFFFF then 0xFFFF else w
  }

  /** Multiplying the rounding bounds through by the period. */
  lemma ScaledBounds(ms: real, scale: real, w: nat)
    requires ms >= 0.0 && scale > 0.0
    requires w == RoundHalfUp(ms / scale)
    ensures ms - scale / 2.0 < w as real * scale <= ms + scale / 2.0
    ensures w as real * scale <= ms + scale / 2.0 < (w + 1) as real * scale
  {
    var x := ms / scale;
    RoundHalfUpIsNearest(x, w);
    assert x * scale == ms;
    assert (x - 0.5) * scale == ms - scale / 2.0;
    assert (x + 0.5) * scale == ms + scale / 2.0;
    MulKeepsOrder(x - 0.5, w as real, scale);
    MulKeepsOrder(w as real, x + 0.5, scale);
    MulKeepsOrder(x + 0.5, (w + 1) as real, scale);
  }

  lemma MulKeepsOrder(a: real, b: real, c: real)
    requires c > 0.0
    ensures a < b ==> a * c < b * c
    ensures a <= b ==> a * c <= b * c
  {
    assert (b - a) * c == b * c - a * c;
    if a < b {
      assert (b - a) * c > 0.0;
    }
  }

  /** A longer duration never gives fewer activity periods. */
  lemma ActivityPeriodsAreMonotone(ms1: real, ms2: real, odr: Odr)
    requires 0.0 <= ms1 <= ms2
    ensures ActivityPeriods(ms1, odr) <= ActivityPeriods(ms2, odr)
  {
    var s := ActivityScale(odr);
    assert ms1 / s <= ms2 / s;
    RoundHalfUpIsMonotone(ms1 / s, ms2 / s);
  }

  /** A longer duration never gives fewer inactivity periods. */
  lemma InactivityPeriodsAreMonotone(ms1: real, ms2: real, odr: Odr)
    requires 0.0 <= ms1 <= ms2
    ensures InactivityPeriods(ms1, odr) <= InactivityPeriods(ms2, odr)
  {
    var s := InactivityScale(odr);
    assert ms1 / s <= ms2 / s;
    RoundHalfUpIsMonotone(ms1 / s, ms2 / s);
  }

  /** High and low byte of a 16-bit word. */
  function SplitWord(w: nat): (r: (bv8, bv8))
    requires w <= 0xFFFF
    ensures r.0 as nat * 256 + r.1 as nat == w
  {
    (ToByte(w / 256), ToByte(w % 256))
  }

  /** `set_activity_time`: one write of the period count; the shadow records
      the duration. The period is chosen from the shadow's data rate. */
  function SetActivityTime(d: Device, ms: real): (r: Device)
    requires ms >= 0.0
    ensures r.bus.trace == d.bus.trace + [WriteFrame(TimeAct, [Peek(r.bus.regs, TimeAct)])]
    ensures Peek(r.bus.regs, TimeAct) as nat == ActivityPeriods(ms, d.shadow.odr)
    ensures forall a: nat :: a != TimeAct ==> Peek(r.bus.regs, a) == Peek(d.bus.regs, a)
    ensures r.shadow == d.shadow.(actTimeMs := ms)
  {
    var bus := Write(d.bus, TimeAct, [ToByte(ActivityPeriods(ms, d.shadow.odr))]);
    Device(d.shadow.(actTimeMs := ms), bus)
  }

  /** `set_inactivity_time`: the high byte, then the low byte, in two writes;
      the shadow records the duration. */
  function SetInactivityTime(d: Device, ms: real): (r: Device)
    requires ms >= 0.0
    ensures var hi := Peek(r.bus.regs, TimeInactH);
      var lo := Peek(r.bus.regs, TimeInactL);
      && r.bus.trace == d.bus.trace + [WriteFrame(TimeInactH, [hi]), WriteFrame(TimeInactL, [lo])]
      && hi as nat * 256 + lo as nat == InactivityPeriods(ms, d.shadow.odr)
    ensures forall a: nat :: a != TimeInactH && a != TimeInactL ==> Peek(r.bus.regs, a) == Peek(d.bus.regs, a)
    ensures r.shadow == d.shadow.(inactTimeMs := ms)
  {
    var (hi, lo) := SplitWord(InactivityPeriods(ms, d.shadow.odr));
    var bus1 := Write(d.bus, TimeInactH, [hi]);
    var bus2 := Write(bus1, TimeInactL, [lo]);
    assert Peek(bus2.regs, TimeInactH) == hi;
    Device(d.shadow.(inactTimeMs := ms), bus2)
  }

  /** The default durations are one period each at the default data rate,
      and a zero duration gives zero periods. */
  lemma TimerExamples()
    ensures ActivityPeriods(6.6, Odr400Hz) == 1 && ActivityPeriods(3.3, Odr6400Hz) == 1
    ensures InactivityPeriods(26.0, Odr400Hz) == 1 && InactivityPeriods(13.0, Odr6400Hz) == 1
    ensures ActivityPeriods(0.0, Odr400Hz) == 0 && InactivityPeriods(0.0, Odr400Hz) == 0
    ensures ActivityPeriods(1700.0, Odr400Hz) == 0xFF && ActivityPeriods(1679.7, Odr400Hz) == 0xFF
  {
    assert RoundHalfUp(6.6 / 6.6) == 1;
    assert RoundHalfUp(3.3 / 3.3) == 1;
    assert RoundHalfUp(26.0 / 26.0) == 1;
    assert RoundHalfUp(13.0 / 13.0) == 1;
  }

  /** The same duration gives twice the activity periods at 6400 Hz, up to
      saturation and rounding: the period count depends on the data rate. */
  lemma ActivityPeriodsDependOnRate()
    ensures ActivityPeriods(6.6, Odr6400Hz) == 2 && ActivityPeriods(6.6, Odr400Hz) == 1
  {
    assert RoundHalfUp(6.6 / 3.3) == 2;
    assert RoundHalfUp(6.6 / 6.6) == 1;
  }
}
